=== FILE: README.md ===
# DradisMD reconciliation core in Dafny

DradisMD keeps a local folder of markup files in step with a project on the
Dradis reporting platform. Importing writes one file per remote entity:
- content blocks;
- issues;
- node evidence;
- document properties.

Exporting pushes every local file back. Each file becomes a create or an
update, chosen by matching sanitised, lower-cased titles against the remote
records. Attachment references in the text are uploaded and rewritten to the
platform's attachment paths. Evidence files remember their remote id in an
`#[EvidenceID]#` field that the exporter appends to the file.

This project models that core of `dradismd.py` as pure functions over
immutable state. A `World` holds three things:
- the exporter's session caches, for issues and for nodes;
- an abstract remote `Server`, which holds records, attachments, properties, the next id and a log of every write call;
- the local files, as a map from paths to text.

Paths are sequences of components. Modules:

- `Base`: strings, `str(int)`, `str.split`, `str.lower` (ASCII) and `str.replace`.
- `Names`: `clean_filename`, the matching key and `get_item_from_dict_list`.
- `Fields`: the `#[Title]#` and `#[EvidenceID]#` patterns as deterministic scanners, plus `get_title`, the id search and the id strip.
- `Attachments`: the attachment pattern, `Path.name`, and `handle_attachments` with its reference definitions of the upload batch and the rewrites.
- `Remote`: records, the call log, and the server's create and update operations.
- `Export`: the following functions, each as a transformer of the `World`:
  - `export_content_block`, `export_issue` and `export_evidence` with `new_evidence`;
  - `export_node` and `export_document_properties`;
  - `update_item` and `get_node_id_from_file`.
- `Import`: three naming concerns:
  - where each `import_*` function writes;
  - the text of `document_properties.ini`;
  - the `add_issue` loop that looks for a free evidence file name.
- `Sessions`: properties of two exports in a row, which follow from how the caches are filled.

What the model does not compute is passed in through `Export.Env`:
- the document converter, as `textile`;
- whether an attachment file exists on disk, as `onDisk`;
- the INI parser, as `properties`.

Three situations end a whole export run with an uncaught exception. The model returns each as a `Crash`:
- **A missing `#[Title]#` marker.** `get_title` reads `match.group(1)` before it checks `match` (dradismd.py:958-960), so a file without the marker raises. `GetTitle` returns `Err`, and `ExportContentBlock`/`ExportIssue` return `Err(MissingTitle)`.
- **A missing node.** `get_node_id_from_file` subscripts `None` when no "Uploaded files" node exists, or when no node matches the evidence's node folder (dradismd.py:661-667). These give `MissingUploadedFiles` and `MissingNode`.
- **A missing properties section.** `export_document_properties` indexes the parsed file by `DOCUMENT_PROPERTIES` (dradismd.py:443), which raises when that section is absent (`MissingPropertiesSection`).

The session caches are re-fetched whenever they are empty, and they are never refreshed after a create. As a result:
- if the cache is already filled, two local issues with the same title both create (`DuplicateTitlesBothCreate`);
- if the remote has no issues, the second issue updates the first one (`EmptyRemoteSecondUpdates`);
- content blocks are listed afresh on every call, so their second file updates the first (`BlocksRelistedSecondUpdates`).

## Model

| member | source | states |
|---|---|---|
| Names.RemoveEachIsKeep | dradismd.py:972-974 | One `replace(c, "")` per character of the set, in order, equals a single pass that keeps exactly the characters outside the set, in order |
| Names.CleanFilename | dradismd.py:971-975 | `clean_filename` deletes exactly the characters `<>:]"/\|?*.` and keeps every other character in order |
| Names.CleanFilenameIsLegal | dradismd.py:971-975 | The cleaned name holds none of the illegal characters and is never longer than the input |
| Names.CleanFilenameFixes | dradismd.py:971-975 | A name is left unchanged exactly when it holds no illegal character |
| Names.CleanFilenameIdempotent | dradismd.py:971-975 | Cleaning twice is cleaning once |
| Names.KeyIsLowerClean | dradismd.py:983 | The one-pass matching key equals `clean_filename(s).lower()` |
| Names.MatchIgnoresCase | dradismd.py:983 | Names that lower-case alike always match |
| Names.CleanedNameMatches | dradismd.py:983 | A name cleaned for use as a file or folder name still matches the remote title it came from |
| Names.FirstMatchFrom | dradismd.py:979-986 | The scan from a position returns the first matching index at or after it, or nothing exactly when no later item matches |
| Names.FirstMatch | dradismd.py:978-987 | `get_item_from_dict_list` yields the first item whose key matches; it yields none exactly when no item matches |
| Names.LookupByCleanedName | dradismd.py:978-987 | Looking an item up by its own cleaned name finds it, or an earlier item with the same key |
| Fields.FieldAt | dradismd.py:83-84 | A match found at a position satisfies the declarative reading of the pattern: marker, `#`s, line breaks, then a value that runs to the end of its line |
| Fields.FieldAtComplete | dradismd.py:83-84 | Every match the declarative reading admits is found by the scanner, with the same captured value |
| Fields.FieldUnique | dradismd.py:83-84 | At most one value is captured at any one position |
| Fields.SearchFrom | dradismd.py:958 | `re.search` from a position: the returned match is the leftmost at or after it; none exactly when no match starts there or later |
| Fields.Search | dradismd.py:522 | The reported match is genuine and no match starts before it; none exactly when the text holds no match |
| Fields.SearchFindsFirst | dradismd.py:958 | Any match with no match before it is the one the search reports |
| Fields.GetTitle | dradismd.py:956-963 | `get_title` fails exactly when the text holds no title field. Otherwise it returns the first field's captured line, or `""` when that line starts with `#[` |
| Fields.EvidenceId | dradismd.py:522-526 | The id is absent exactly when no EvidenceID field exists. Otherwise it is the value captured by the first field in the text, a non-empty single line |
| Fields.StripFromNoField | dradismd.py:575 | `re.sub(EVIDENCE_ID_REGEX, "", …)` leaves a text with no match unchanged |
| Fields.StripChangesIffField | dradismd.py:575 | Stripping changes the text exactly when it holds a match |
| Fields.NoMarkerNoField | dradismd.py:522 | A text that never mentions the marker has no field |
| Fields.EvidenceBlockRoundTrip | dradismd.py:522-526 | Take a text that never mentions the EvidenceID marker and append the block `new_evidence` writes (lines 578-579). The next search of the result finds exactly the appended id |
| Attachments.NextBang | dradismd.py:359 | The closing `!` is the next one on the same line; none exactly when the line has no further `!` |
| Attachments.FirstParen | dradismd.py:359 | The caption starts at the first `(` between the two `!`; none when there is no `(` there |
| Attachments.MatchAt | dradismd.py:359 | A match is `!path caption!` located where it claims to be, ending after its closing `!`. Its path holds no `!`, newline or `(`, and its caption starts with `(` |
| Attachments.ScanFrom | dradismd.py:359-360 | `finditer` from a position lists the matches in order, each well formed and located, with no match possible in any gap or after the last one |
| Attachments.Scan | dradismd.py:360 | The whole-text scan tokenises the text and every listed match is well formed |
| Attachments.NoBangNoAttachments | dradismd.py:360-361 | A text without `!` has no attachment reference |
| Attachments.Name | dradismd.py:367 | `Path(p).name` holds no `/` and is never `.` |
| Attachments.NameOfChild | dradismd.py:367 | The name of `dir/file` is `file` |
| Attachments.Uploads | dradismd.py:370-381 | The upload batch holds exactly the attachments whose decoded name is not on the node and whose decoded path exists on disk, each as (decoded path, decoded name) |
| Attachments.Rewrites | dradismd.py:385-399 | Every attachment not missing on disk, and only those, is rewritten to `!/pro/projects/{p}/nodes/{n}/attachments/{name}{caption}!` |
| Attachments.HandleEach | dradismd.py:366-399 | The loop over the scanned matches produces exactly the reference batch, and applies exactly the reference rewrites in scan order |
| Attachments.HandleAttachments | dradismd.py:355-407 | The batch and the rewritten content follow the scan of the content; without a match nothing is uploaded and the content is unchanged |
| Attachments.ReexportUploadsNothing | dradismd.py:370-372 | Once the node holds every file of a batch, handling the same references again uploads nothing |
| Attachments.CanonicalContentUnchanged | dradismd.py:385-399 | Content whose references all point at the node's own attachment directory comes back unchanged |
| Export.Attach | dradismd.py:358-406 | `handle_attachments` returns the content rewritten by the reference rewrites. A non-empty batch makes exactly one `create_attachment` call for this node, carrying the batch's file names in scan order, and adds them to the node's attachments. An empty batch leaves the server untouched. Nothing else on the server or in the session changes, and text without `!` passes untouched |
| Export.NodeIdFromFile | dradismd.py:656-670 | Block files resolve to the id of the "Uploaded files" node minus 1. Evidence files resolve to the id of the node named by their great-grandparent folder. A missing node is a crash, other files get `None`, and the node cache is filled |
| Export.WriteBlock | dradismd.py:426-437 | Exactly one call: a create under the local title and the next id when no listed block matches, else an update of the first match's id. A create appends the block under the next id and advances it; an update leaves every record as it was |
| Export.PushBlock | dradismd.py:422-437 | The write half of `export_content_block` fails exactly when node resolution fails. Otherwise the node cache is filled, and the block is written to the resolved node as `PushBlockTo` states. The files and the issue cache stay as they were |
| Export.PushBlockTo | dradismd.py:358-437 | For a resolved node: a non-empty batch is uploaded to it with its file names added to the node's attachments, then one block write carries the rewritten text. With no listed block of that title, a create appends the block under the next id and advances it. Otherwise the first match's id is updated and no record changes |
| Export.ExportContentBlock | dradismd.py:409-438 | Empty text or an empty title makes no call; a missing title marker crashes; otherwise the block is written |
| Export.ExportIssue | dradismd.py:452-474 | Empty text or an empty title makes no call, and a missing marker crashes. Otherwise the issue cache is filled if it was empty, and exactly one call follows. With no cached match, a create appends the issue under the next id and advances it. Otherwise an update of the first match's id leaves every record as it was |
| Export.NewEvidence | dradismd.py:560-583 | `new_evidence` appends an evidence record under the next id, advances the id and logs its create call; nothing else on the server changes. It rewrites only the local file: the prior text, stripped of EvidenceID fields when asked, plus the block carrying the new id |
| Export.WriteEvidence | dradismd.py:522-558 | Decided by the EvidenceID of the content `c`. With an id the node holds: one accepted update of that id carrying `c`, and no file change. With an id the node does not hold: a refused update of it, then a create carrying `c`, and the file gets its old ids stripped and the new id appended. Without an id: one create carrying `c`, and the new id appended. A create adds the evidence to the server's list under the next id and advances it; an accepted update changes no record |
| Export.PushEvidence | dradismd.py:517-558 | The batch of the text is uploaded to the node when it is not empty. Then the evidence write of `WriteEvidence` follows, on the rewritten text |
| Export.EvidenceWriteScope | dradismd.py:522-583 | An evidence write changes only the evidence file on disk, and every call it makes is about the evidence's node |
| Export.ExportEvidence | dradismd.py:504-558 | Empty text, or an issue folder matching no cached issue, makes no call and changes no file. Non-empty text fills an empty issue cache before the lookup. Otherwise the file's text is uploaded and rewritten, then written under the first matching issue's id as `WriteEvidence` decides from the rewritten text's EvidenceID, with the same effect on the server's evidence list and next id. A skipped file leaves the server as it was. Only this file changes, and every call is about this node |
| Export.ExportFiles | dradismd.py:499-502 | Exporting the files of one issue folder keeps the file set and only appends calls about this node |
| Export.ExportFolders | dradismd.py:496-502 | Exporting every issue folder of a node keeps the file set and only appends calls about this node |
| Export.ExportNode | dradismd.py:476-502 | `export_node` fills the node cache and never adds the node it creates to it. It changes no file without an `Evidences` folder, and only appends calls |
| Export.ExportNodeCreates | dradismd.py:480-484 | A folder naming no cached node first creates it. Every later call is about the new node's id |
| Export.ExportNodeFinds | dradismd.py:480-487 | A folder naming cached node `k` makes only calls about that node's id |
| Export.FindNode | dradismd.py:480-487 | The node id is the first matching cached node's. Otherwise a node is created under the name: it is appended under the next id, the id advances, and one create call is logged |
| Export.ExportProperties | dradismd.py:444-450 | Exactly one update per property, in order, each accepted or refused, carrying on past refused ones. Nothing on the server but the properties changes |
| Export.PropertyUntouched | dradismd.py:444-450 | A property the server refuses, or one the file does not mention, keeps its remote value |
| Export.PropertyLastWins | dradismd.py:444-450 | An accepted property ends with the value of its last mention |
| Export.ExportPropertiesFile | dradismd.py:440-450 | A properties file without the section crashes. Otherwise there is one update per parsed pair, in order, as `ExportProperties` states |
| Export.RoleOf | dradismd.py:646-654 | Dispatch order: the name `document_properties.ini`, then parent `Content Blocks`, then parent `Issues`, then grandparent `Evidences`, else nothing |
| Export.UpdateItem | dradismd.py:638-654 | `update_item` runs the exporter of the file's role: properties, content block, issue, or evidence under the node resolved from the path and the issue named by the parent folder. An unrecognised path exports nothing. Only an evidence file can change, and only that file. An evidence file crashes exactly when its node is missing, and otherwise calls only about that node |
| Sessions.IssueCreated | dradismd.py:461-468 | An issue matching no cached title is created under the next id. It leaves the cache as filled, without the new issue |
| Sessions.DuplicateTitlesBothCreate | dradismd.py:461-468 | When the issue list the lookup sees is non-empty, whether cached or fetched on this first export, two local issues of the same new title make two creates |
| Sessions.EmptyRemoteSecondUpdates | dradismd.py:461-473 | With no remote issues, the first file creates and the cache stays empty. The second file of that title re-lists, finds the new issue and updates it |
| Sessions.SecondIssueUpdates | dradismd.py:461-473 | After that first create, the second file updates the new issue's id |
| Sessions.PushPlainBlock | dradismd.py:422-437 | A block without attachment references, once its node resolves, is written as it is |
| Sessions.PlainBlockCreates | dradismd.py:424-431 | A block file matching no listed title creates a block under the next id, keeping the files and the node cache |
| Sessions.PlainBlockUpdates | dradismd.py:424-437 | A block file whose title matches listed block `k` updates block `k`'s id |
| Sessions.SecondBlockUpdates | dradismd.py:424-437 | After a create appended a block of the same title, the second block file updates it |
| Sessions.BlocksRelistedSecondUpdates | dradismd.py:424-437 | Blocks are re-listed on every call, so of two block files with the same new title the first creates and the second updates |
| Sessions.BlockHasNoBang | dradismd.py:578-579 | The appended id block never introduces an attachment reference |
| Sessions.EvidenceRoundTrip | dradismd.py:504-583 | An evidence file without an id is created and gets the new id appended. Exporting it again updates that very evidence, the update is accepted, and the file stays as it is |
| Import.Component | dradismd.py:331-332 | A cleaned name gives at most one safe path component, and none exactly when it cleans to `""`. That component matches the original name |
| Import.FileName | dradismd.py:246 | `{clean_filename(title)}.textile` is a safe, non-empty file name ending in `.textile`, never `document_properties.ini` |
| Import.ProjectPath | dradismd.py:331-332 | The project folder lies inside the destination |
| Import.BlockPath | dradismd.py:239-247 | A content block is written inside the project, under `Content Blocks`. Exporting that file again dispatches it as a block |
| Import.IssuePath | dradismd.py:269-282 | An issue is written inside the project, under `Issues`. Exporting that file again dispatches it as an issue |
| Import.NodePath | dradismd.py:295 | A node folder lies inside the project; a non-empty cleaned label names it and matches the node's label |
| Import.EvidenceName | dradismd.py:305 | `Evidence-{index+1}-{issue}.textile` is a safe file name, never `document_properties.ini` |
| Import.EvidencePath | dradismd.py:295-306 | An evidence file lies inside the project, under its name |
| Import.EvidencePathResolves | dradismd.py:295-306 | Exporting an imported evidence file again reads back an issue name that matches its issue, and a node name that matches its node. The file is dispatched as evidence unless the issue folder is `Content Blocks` or `Issues` |
| Import.EvidenceNamesDistinct | dradismd.py:305 | Different indexes give different evidence file names, whatever the issues |
| Import.EvidencePathsDistinct | dradismd.py:301-306 | Evidence of one node never overwrites other evidence of that node: the index counts across all its evidence |
| Import.BlockPathsCollide | dradismd.py:246-247 | Two block titles land in the same file exactly when they clean to the same name |
| Import.PropertiesRoundTrip | dradismd.py:254-264 | Reading `document_properties.ini` back yields exactly the listed pairs, in order, for pairs `configparser` returns unchanged: distinct non-empty keys of lower-case ASCII letters, digits, `_`, `-` and `.`, and values of printable ASCII without `%` and without a space at either end |
| Import.NextStem | dradismd.py:761-769 | The next stem ends in a digit and never equals the stem it was given |
| Import.ProbesDistinct | dradismd.py:758-769 | The probe loop never revisits a stem |
| Import.FreshStem | dradismd.py:758-769 | The loop ends on the first probed stem that is not taken, and every stem probed before it is taken |

## Left out

- Pandoc conversion (`convert`, `convert_file`, `get_textile_content` and friends) is replaced by the parameter `Env.textile`.
- The Dradis API wrapper and the network are replaced by the abstract `Server`. Only two writes can fail:
  - an evidence update whose id the node does not hold;
  - a document property the server refuses.

  The code reacts to the failure of those two. Creates always succeed, and a create answer without an `id` (`result.get("id")` giving `None`) is not modelled.
- Updates are only logged; the content they send is not stored in the remote records, since nothing the model observes reads it back.
- Filesystem effects are modelled as follows:
  - reads and writes become the file map;
  - `mkdir` is not modelled;
  - `Path.resolve` and `is_file` on attachment paths become the predicate `Env.onDisk`;
  - `iterdir` listings are inputs: the `IssueFolder` lists given to `ExportNode`, and the `existing` set given to `FreshStem`;
  - file renames are not modelled.
- `configparser` is replaced by `Env.properties`. Its key lower-casing and its duplicate-key errors are part of that parser and not modelled.
- Import.PropertiesRoundTrip: stated only for pairs `configparser` returns unchanged. For other pairs it splits at `:` as well as `=`, lower-cases keys, strips whitespace, takes `#` and `;` lines for comments and `[` lines for sections, and raises on a lone `%` or a repeated key; the model's reader does none of this. The file is written as UTF-8 (dradismd.py:263) but read back in the locale's encoding (dradismd.py:442), so values outside ASCII are not claimed either.
- `update_project` is not modelled as a whole. It only calls the modelled exporters in a fixed order, over directory listings. Its order-dependent effects are stated in `Sessions` for two files at a time.
- `import_project`, `import_content_blocks`, `import_issues` and `import_nodes` are modelled for where they write (`Import`). Their API listing and their file writes are not.
- `add_issue` is modelled for its probe loop only. Its file naming is not modelled: the issue file and the evidence folder are named after `issue_title`, which is cleaned only when the issue comes from the library (dradismd.py:744), and the node folder after the raw `node_name`.
- Not modelled:
  - `list_projects`, because it depends on time and table output;
  - `list_issues_in_library`, because it uses floating-point similarity ratios;
  - `walk_directory`, the CLI, logging and `setup.py`, because they are UI and packaging.
- Attachments.Name: models `Path.name` for POSIX paths. On Windows, `pathlib` also splits at `\` and drops a drive prefix, which the model does not.
- Import.ProjectPath: the destination is taken as given. The code first strips trailing `"` characters from it (dradismd.py:324), a Windows shell artefact that the model does not reproduce.
- Attachments.Uploads: names each upload after the attachment path as written, `%20` decoded. The code uploads `Path.resolve(...)` (dradismd.py:374-381), so a symlinked attachment is stored under its target's name. The existence check (dradismd.py:371-372) compares the unresolved name, so the code uploads such a file again on every export, which `ReexportUploadsNothing` does not cover.
- Remote.CreateIssueRecord: the server is assumed to file a new issue under the title the exporter parsed from the content. The platform derives the title from the content itself; the model does not parse the content on the server side.
- Lower-casing is modelled for ASCII letters only; Python's `str.lower` covers all of Unicode.
- `str.isdigit` in `add_issue` accepts non-ASCII digits, which the model does not.
- Rewrites are modelled as literal replacements. `re.sub` would process backslash escapes in the replacement text, which holds the attachment name and caption.
- Export.ExportNode: its contract does not say which calls the node's evidence makes. `ExportNodeCreates` and `ExportNodeFinds` state that every call is about the node's id, but the per-file outcome is stated only by `ExportEvidence`.
- Export.ExportFiles: states the file set and the scope of the calls, not each file's contents, which `ExportEvidence` gives one file at a time.
- Export.ExportFolders: the same as `ExportFiles`, one folder at a time.
- Export.ExportNodeFinds: a direct consequence of the contracts of `FindNode` and `ExportFolders`, kept as a named statement about `ExportNode`.
- Two names that clean to the same key: nodes and issues whose different titles match each other are not given a contract beyond first-match lookup.
- The name probe is not fully promised. After `Evidence9` it tries `Evidence10`, and after `Evidence19` it tries `Evidence110`, because only the last digit is incremented. The model states that probing never repeats a stem and that the loop ends. It does not state which names are skipped.

=== FILE: attachments.dfy ===
/**
  Attachment references in textile content and their rewriting
  (`handle_attachments`).

  The pattern `!(?P<path>.*?)(?P<caption>\(.*?)?!` with `finditer` reduces to
  a deterministic rule.  From a `!` at position s, let q be the next `!` on
  the same line (`.` does not cross a newline); without one there is no match
  at s.  If a `(` occurs strictly between s and q, the path runs up to the
  first such `(` and the caption from it up to q; otherwise the path is
  everything between s and q and there is no caption.  Scanning resumes
  after q.
 */
module Attachments {
  import opened Base

  /** One match of the attachment pattern: where it starts, its full text, and its two groups. */
  datatype Attachment = Attachment(at: nat, text: string, path: string, caption: Option<string>)

  function CaptionText(c: Option<string>): string {
    match c
    case None => ""
    case Some(t) => t
  }

  function End(a: Attachment): nat { a.at + |a.text| }

  /** The shape every match has: the text is `!path caption!`, and the groups hold no `!` or newline. */
  predicate WellFormed(a: Attachment) {
    && a.text == "!" + a.path + CaptionText(a.caption) + "!"
    && '!' !in a.path && '\n' !in a.path && '(' !in a.path
    && (a.caption.Some? ==>
          |a.caption.value| > 0 && a.caption.value[0] == '(' && '!' !in a.caption.value && '\n' !in a.caption.value)
  }

  predicate LocatedIn(s: string, a: Attachment) {
    End(a) <= |s| && s[a.at..End(a)] == a.text
  }

  predicate NotNewline(c: char) { c != '\n' }

  /** The position of the next `!` at or after `j` on the same line, if there is one. */
  function NextBang(s: string, j: nat): (r: Option<nat>)
    requires j <= |s|
    ensures r.Some? ==> j <= r.value < |s| && s[r.value] == '!'
    ensures r.Some? ==> forall k :: j <= k < r.value ==> s[k] != '!' && s[k] != '\n'
    ensures r.None? <==> forall k :: j <= k < Run(s, j, NotNewline) ==> s[k] != '!'
    decreases |s| - j
  {
    if j == |s| || s[j] == '\n' then None
    else if s[j] == '!' then Some(j)
    else NextBang(s, j + 1)
  }

  /** The first `(` in `[lo, hi)`, if any. */
  function FirstParen(s: string, lo: nat, hi: nat): (r: Option<nat>)
    requires lo <= hi <= |s|
    ensures r.Some? ==> lo <= r.value < hi && s[r.value] == '('
    ensures r.Some? ==> forall k :: lo <= k < r.value ==> s[k] != '('
    ensures r.None? ==> forall k :: lo <= k < hi ==> s[k] != '('
    decreases hi - lo
  {
    if lo == hi then None
    else if s[lo] == '(' then Some(lo)
    else FirstParen(s, lo + 1, hi)
  }

  /** No match can start in `[lo, hi)`: every `!` there has no later `!` on its line. */
  predicate Inert(s: string, lo: nat, hi: nat) {
    forall j :: lo <= j < hi && j < |s| && s[j] == '!' ==> NextBang(s, j + 1).None?
  }

  /** The match starting at `i`, given the closing `!` at `q`. */
  function MatchAt(s: string, i: nat, q: nat): (a: Attachment)
    requires i < q < |s| && s[i] == '!' && s[q] == '!'
    requires forall k :: i < k < q ==> s[k] != '!' && s[k] != '\n'
    ensures WellFormed(a) && LocatedIn(s, a) && a.at == i && End(a) == q + 1
  {
    match FirstParen(s, i + 1, q)
    case Some(p) =>
      CaptionedMatch(s, i, p, q);
      Attachment(i, s[i..q + 1], s[i + 1..p], Some(s[p..q]))
    case None =>
      PlainMatch(s, i, q);
      Attachment(i, s[i..q + 1], s[i + 1..q], None)
  }

  /** A slice of a line segment free of `!` and newlines holds neither. */
  lemma QuietSlice(s: string, lo: nat, hi: nat)
    requires lo <= hi <= |s|
    requires forall k :: lo <= k < hi ==> s[k] != '!' && s[k] != '\n'
    ensures '!' !in s[lo..hi] && '\n' !in s[lo..hi]
  {
    Absent(s, lo, hi, '!');
    Absent(s, lo, hi, '\n');
  }

  lemma Absent(s: string, lo: nat, hi: nat, c: char)
    requires lo <= hi <= |s|
    requires forall k :: lo <= k < hi ==> s[k] != c
    ensures c !in s[lo..hi]
  {
    forall k | 0 <= k < hi - lo
      ensures s[lo..hi][k] != c
    {
      assert s[lo..hi][k] == s[lo + k];
    }
  }

  lemma CaptionedMatch(s: string, i: nat, p: nat, q: nat)
    requires i < p < q < |s| && s[i] == '!' && s[q] == '!' && s[p] == '('
    requires forall k :: i < k < q ==> s[k] != '!' && s[k] != '\n'
    requires forall k :: i + 1 <= k < p ==> s[k] != '('
    ensures var a := Attachment(i, s[i..q + 1], s[i + 1..p], Some(s[p..q]));
      WellFormed(a) && LocatedIn(s, a) && End(a) == q + 1
  {
    assert s[i..q + 1] == "!" + s[i + 1..p] + s[p..q] + "!";
    QuietSlice(s, i + 1, p);
    QuietSlice(s, p, q);
    Absent(s, i + 1, p, '(');
  }

  lemma PlainMatch(s: string, i: nat, q: nat)
    requires i < q < |s| && s[i] == '!' && s[q] == '!'
    requires forall k :: i < k < q ==> s[k] != '!' && s[k] != '\n'
    requires forall k :: i + 1 <= k < q ==> s[k] != '('
    ensures var a := Attachment(i, s[i..q + 1], s[i + 1..q], None);
      WellFormed(a) && LocatedIn(s, a) && End(a) == q + 1
  {
    assert s[i..q + 1] == "!" + s[i + 1..q] + "!";
    QuietSlice(s, i + 1, q);
    Absent(s, i + 1, q, '(');
  }

  /**
    Declarative reading of `finditer` from position `i`: `r` lists the matches
    in order, each well formed and found where it claims to be, with no match
    possible in the gap before each one nor after the last.
   */
  ghost predicate Tokenises(s: string, i: nat, r: seq<Attachment>)
    decreases |r|
  {
    if r == [] then Inert(s, i, |s|)
    else
      && WellFormed(r[0]) && LocatedIn(s, r[0]) && i <= r[0].at
      && Inert(s, i, r[0].at)
      && Tokenises(s, End(r[0]), r[1..])
  }

  /** `finditer` from position `i`. */
  function ScanFrom(s: string, i: nat): (r: seq<Attachment>)
    requires i <= |s|
    ensures Tokenises(s, i, r)
    decreases |s| - i
  {
    if i == |s| then []
    else if s[i] != '!' || NextBang(s, i + 1).None? then
      var r := ScanFrom(s, i + 1);
      SkipKeepsTokens(s, i, r);
      r
    else
      var q := NextBang(s, i + 1).value;
      var a := MatchAt(s, i, q);
      var rest := ScanFrom(s, q + 1);
      TokensCons(s, i, a, rest);
      [a] + rest
  }

  /** A position where no match starts can be skipped. */
  lemma SkipKeepsTokens(s: string, i: nat, r: seq<Attachment>)
    requires i < |s| && (s[i] != '!' || NextBang(s, i + 1).None?)
    requires Tokenises(s, i + 1, r)
    ensures Tokenises(s, i, r)
  {
    if r != [] {
      assert Inert(s, i, r[0].at);
    }
  }

  lemma TokensCons(s: string, i: nat, a: Attachment, rest: seq<Attachment>)
    requires WellFormed(a) && LocatedIn(s, a) && a.at == i
    requires Tokenises(s, End(a), rest)
    ensures Tokenises(s, i, [a] + rest)
  {
    assert ([a] + rest)[1..] == rest;
  }

  lemma {:induction false} TokensWellFormed(s: string, i: nat, r: seq<Attachment>)
    requires Tokenises(s, i, r)
    ensures forall k :: 0 <= k < |r| ==> WellFormed(r[k])
    decreases |r|
  {
    if r != [] {
      TokensWellFormed(s, End(r[0]), r[1..]);
      assert forall k :: 0 < k < |r| ==> r[k] == r[1..][k - 1];
    }
  }

  function Scan(s: string): (r: seq<Attachment>)
    ensures Tokenises(s, 0, r)
    ensures forall k :: 0 <= k < |r| ==> WellFormed(r[k])
  {
    var r := ScanFrom(s, 0);
    TokensWellFormed(s, 0, r);
    r
  }

  lemma {:induction false} NoBangFrom(s: string, i: nat)
    requires i <= |s|
    requires forall k :: i <= k < |s| ==> s[k] != '!'
    ensures ScanFrom(s, i) == []
    decreases |s| - i
  {
    if i < |s| {
      NoBangFrom(s, i + 1);
    }
  }

  /** Text without a `!` holds no attachment reference. */
  lemma NoBangNoAttachments(s: string)
    ensures '!' !in s ==> Scan(s) == []
  {
    if '!' !in s {
      NoBangFrom(s, 0);
    }
  }

  /** A path's components, as `pathlib` keeps them: empty and `.` components are dropped. */
  function LastPart(parts: seq<string>): (r: string)
    ensures r == "" || r in parts
    ensures r != "."
    decreases |parts|
  {
    if parts == [] then ""
    else
      var last := parts[|parts| - 1];
      if last != "" && last != "." then last else LastPart(parts[..|parts| - 1])
  }

  /** `Path(p).name`: the last component of a POSIX path, or `""` when there is none. */
  function Name(p: string): (r: string)
    ensures '/' !in r && r != "."
  {
    LastPart(Split(p, '/'))
  }

  /** The name of a file placed in a directory is the file's own name. */
  lemma NameOfChild(dir: string, file: string)
    requires file != "" && file != "." && '/' !in file
    ensures Name(dir + "/" + file) == file
  {
    SplitAppend(dir, file, '/');
    SplitNoSep(file, '/');
    assert dir + "/" + file == dir + ['/'] + file;
  }

  /** `%20` decoded to a space, as done for the remote comparison and the disk lookup. */
  function Decode(s: string): string {
    ReplaceAll(s, "%20", " ")
  }

  /** The remote directory holding a node's attachments. */
  function AttachmentsDir(project: string, node: string): string {
    "/pro/projects/" + project + "/nodes/" + node + "/attachments"
  }

  /** The reference an attachment is rewritten to: the remote directory, its name, its caption. */
  function Target(project: string, node: string, a: Attachment): string {
    "!" + AttachmentsDir(project, node) + "/" + Name(a.path) + CaptionText(a.caption) + "!"
  }

  /** What happens to one attachment: already on the node, to be uploaded, or missing on disk. */
  datatype Fate = Present | Fresh | Missing

  function FateOf(a: Attachment, remote: seq<string>, onDisk: string -> bool): Fate {
    if Decode(Name(a.path)) in remote then Present
    else if onDisk(Decode(a.path)) then Fresh
    else Missing
  }

  /** A file queued for upload: the decoded path looked up on disk and the file name it is stored under. */
  datatype Upload = Upload(localPath: string, name: string)

  function UploadOf(a: Attachment): Upload {
    Upload(Decode(a.path), Decode(Name(a.path)))
  }

  /** Reference definition of the upload batch: the fresh attachments, in scan order. */
  function Uploads(atts: seq<Attachment>, remote: seq<string>, onDisk: string -> bool): (u: seq<Upload>)
    ensures |u| <= |atts|
    ensures forall x :: x in u <==> exists a :: a in atts && FateOf(a, remote, onDisk) == Fresh && x == UploadOf(a)
    decreases |atts|
  {
    if atts == [] then []
    else
      var tail := Uploads(atts[1..], remote, onDisk);
      assert forall a :: a in atts <==> a == atts[0] || a in atts[1..];
      if FateOf(atts[0], remote, onDisk) == Fresh then [UploadOf(atts[0])] + tail else tail
  }

  /** Reference definition of the rewrites: every attachment not missing on disk, in scan order. */
  function Rewrites(project: string, node: string, atts: seq<Attachment>, remote: seq<string>, onDisk: string -> bool)
    : (rw: seq<(string, string)>)
    requires forall k :: 0 <= k < |atts| ==> WellFormed(atts[k])
    ensures forall k :: 0 <= k < |rw| ==> |rw[k].0| > 0
    ensures forall x :: x in rw <==>
      exists a :: a in atts && FateOf(a, remote, onDisk) != Missing && x == (a.text, Target(project, node, a))
    decreases |atts|
  {
    if atts == [] then []
    else
      assert WellFormed(atts[0]);
      var tail := Rewrites(project, node, atts[1..], remote, onDisk);
      assert forall a :: a in atts <==> a == atts[0] || a in atts[1..];
      if FateOf(atts[0], remote, onDisk) != Missing then [(atts[0].text, Target(project, node, atts[0]))] + tail
      else tail
  }

  /** Applies the rewrites one after the other, each to every occurrence, as the successive `re.sub` calls do. */
  function ApplyAll(content: string, rw: seq<(string, string)>): string
    requires forall k :: 0 <= k < |rw| ==> |rw[k].0| > 0
    decreases |rw|
  {
    if rw == [] then content else ApplyAll(ReplaceAll(content, rw[0].0, rw[0].1), rw[1..])
  }

  datatype Handled = Handled(content: string, uploads: seq<Upload>)

  /** The loop body of `handle_attachments`, over the scanned attachments in order. */
  function HandleEach(project: string, node: string, atts: seq<Attachment>, content: string,
                      remote: seq<string>, onDisk: string -> bool): (h: Handled)
    requires forall k :: 0 <= k < |atts| ==> WellFormed(atts[k])
    ensures h.uploads == Uploads(atts, remote, onDisk)
    ensures h.content == ApplyAll(content, Rewrites(project, node, atts, remote, onDisk))
    decreases |atts|
  {
    if atts == [] then Handled(content, [])
    else
      var a := atts[0];
      assert WellFormed(a);
      match FateOf(a, remote, onDisk)
      case Missing => HandleEach(project, node, atts[1..], content, remote, onDisk)
      case Present => HandleEach(project, node, atts[1..], ReplaceAll(content, a.text, Target(project, node, a)), remote, onDisk)
      case Fresh =>
        var h := HandleEach(project, node, atts[1..], ReplaceAll(content, a.text, Target(project, node, a)), remote, onDisk);
        Handled(h.content, [UploadOf(a)] + h.uploads)
  }

  /**
    `handle_attachments` without its remote effects: the rewritten content and
    the batch to upload in one call (no call when the batch is empty).
   */
  function HandleAttachments(project: string, node: string, content: string,
                             remote: seq<string>, onDisk: string -> bool): (h: Handled)
    ensures h.uploads == Uploads(Scan(content), remote, onDisk)
    ensures h.content == ApplyAll(content, Rewrites(project, node, Scan(content), remote, onDisk))
    ensures Scan(content) == [] ==> h == Handled(content, [])
  {
    HandleEach(project, node, Scan(content), content, remote, onDisk)
  }

  function UploadNames(u: seq<Upload>): (names: seq<string>)
    ensures |names| == |u|
    ensures forall k :: 0 <= k < |u| ==> names[k] == u[k].name
  {
    seq(|u|, k requires 0 <= k < |u| => u[k].name)
  }

  /**
    Re-exporting is idempotent for uploads: once the node holds every file of
    the batch, handling the same references again uploads nothing.
   */
  lemma {:induction false} ReexportUploadsNothing(atts: seq<Attachment>, remote: seq<string>, remote': seq<string>,
                                                  onDisk: string -> bool)
    requires forall x :: x in remote ==> x in remote'
    requires forall u :: u in Uploads(atts, remote, onDisk) ==> u.name in remote'
    ensures Uploads(atts, remote', onDisk) == []
    decreases |atts|
  {
    if atts != [] {
      var a := atts[0];
      assert a in atts;
      if FateOf(a, remote, onDisk) == Fresh {
        assert UploadOf(a) in Uploads(atts, remote, onDisk);
      }
      forall u | u in Uploads(atts[1..], remote, onDisk) ensures u.name in remote' {
        var b :| b in atts[1..] && FateOf(b, remote, onDisk) == Fresh && u == UploadOf(b);
        assert b in atts;
      }
      ReexportUploadsNothing(atts[1..], remote, remote', onDisk);
    }
  }

  /** A reference that already points at the node's attachment directory is rewritten to itself. */
  predicate Canonical(project: string, node: string, a: Attachment) {
    a.path == AttachmentsDir(project, node) + "/" + Name(a.path)
  }

  lemma {:induction false} ApplyAllIdentity(content: string, rw: seq<(string, string)>)
    requires forall k :: 0 <= k < |rw| ==> |rw[k].0| > 0 && rw[k].0 == rw[k].1
    ensures ApplyAll(content, rw) == content
    decreases |rw|
  {
    if rw != [] {
      ReplaceAllSelf(content, rw[0].0);
      ApplyAllIdentity(content, rw[1..]);
    }
  }

  lemma {:induction false} CanonicalRewritesIdentity(project: string, node: string, atts: seq<Attachment>,
                                                     remote: seq<string>, onDisk: string -> bool)
    requires forall k :: 0 <= k < |atts| ==> WellFormed(atts[k]) && Canonical(project, node, atts[k])
    ensures forall k :: 0 <= k < |Rewrites(project, node, atts, remote, onDisk)| ==>
      Rewrites(project, node, atts, remote, onDisk)[k].0 == Rewrites(project, node, atts, remote, onDisk)[k].1
    decreases |atts|
  {
    if atts != [] {
      var a := atts[0];
      assert WellFormed(a) && Canonical(project, node, a);
      assert Target(project, node, a) == a.text;
      CanonicalRewritesIdentity(project, node, atts[1..], remote, onDisk);
    }
  }

  /** Content whose references are all canonical for this node comes back unchanged. */
  lemma CanonicalContentUnchanged(project: string, node: string, content: string,
                                  remote: seq<string>, onDisk: string -> bool)
    requires forall k :: 0 <= k < |Scan(content)| ==> Canonical(project, node, Scan(content)[k])
    ensures HandleAttachments(project, node, content, remote, onDisk).content == content
  {
    CanonicalRewritesIdentity(project, node, Scan(content), remote, onDisk);
    ApplyAllIdentity(content, Rewrites(project, node, Scan(content), remote, onDisk));
  }
}

=== FILE: base.dfy ===
/**
  Shared vocabulary: the failure-carrying datatypes and the handful of Python
  string primitives (`str.lower`, `str.replace`, `str.split`, `str(int)`) that
  the rest of the model is written in terms of.
 */
module Base {

  datatype Option<+T> = None | Some(value: T)

  /** An operation that either completes with a value or raises. */
  datatype Result<+T, +E> = Ok(value: T) | Err(error: E)

  predicate IsBreak(c: char) { c == '\r' || c == '\n' }

  predicate IsDigit(c: char) { '0' <= c <= '9' }

  /** `pat` occurs in `s` starting at index `j`. */
  predicate OccursAt(pat: string, s: string, j: nat) {
    j + |pat| <= |s| && s[j..j + |pat|] == pat
  }

  /** The end of the maximal run of characters satisfying `inRun` that starts at `j`. */
  function Run(s: string, j: nat, inRun: char -> bool): (e: nat)
    requires j <= |s|
    ensures j <= e <= |s|
    ensures forall k :: j <= k < e ==> inRun(s[k])
    ensures e < |s| ==> !inRun(s[e])
    decreases |s| - j
  {
    if j == |s| || !inRun(s[j]) then j else Run(s, j + 1, inRun)
  }

  /** A run is determined by its start: any maximal stretch of `inRun` characters is the one `Run` finds. */
  lemma {:induction false} RunUnique(s: string, j: nat, e: nat, inRun: char -> bool)
    requires j <= e <= |s|
    requires forall k :: j <= k < e ==> inRun(s[k])
    requires e < |s| ==> !inRun(s[e])
    ensures Run(s, j, inRun) == e
    decreases e - j
  {
    if j < e {
      RunUnique(s, j + 1, e, inRun);
    }
  }

  /** ASCII case folding; `str.lower` on characters outside A-Z is taken as the identity. */
  function LowerChar(c: char): char {
    if 'A' <= c <= 'Z' then (c as int + 32) as char else c
  }

  function Lower(s: string): (r: string)
    ensures |r| == |s|
    decreases |s|
  {
    if s == [] then [] else [LowerChar(s[0])] + Lower(s[1..])
  }

  /** `s.replace(pat, rep)`: every non-overlapping occurrence, scanning left to right. */
  function ReplaceAll(s: string, pat: string, rep: string): string
    requires |pat| > 0
    decreases |s|
  {
    if |s| < |pat| then s
    else if s[..|pat|] == pat then rep + ReplaceAll(s[|pat|..], pat, rep)
    else [s[0]] + ReplaceAll(s[1..], pat, rep)
  }

  /** Replacing a text by itself changes nothing. */
  lemma {:induction false} ReplaceAllSelf(s: string, pat: string)
    requires |pat| > 0
    ensures ReplaceAll(s, pat, pat) == s
    decreases |s|
  {
    if |s| < |pat| {
    } else if s[..|pat|] == pat {
      ReplaceAllSelf(s[|pat|..], pat);
      assert pat + s[|pat|..] == s;
    } else {
      ReplaceAllSelf(s[1..], pat);
      assert [s[0]] + s[1..] == s;
    }
  }

  function DigitChar(d: nat): (c: char)
    requires d < 10
    ensures IsDigit(c)
  {
    ('0' as int + d) as char
  }

  /** `str(n)` for a non-negative integer: its decimal digits, no sign, no leading zeros. */
  function NatToString(n: nat): (r: string)
    ensures |r| > 0
    ensures forall k :: 0 <= k < |r| ==> IsDigit(r[k])
    ensures n < 10 <==> |r| == 1
    ensures r[|r| - 1] == DigitChar(n % 10)
    decreases n
  {
    if n < 10 then [DigitChar(n)] else NatToString(n / 10) + [DigitChar(n % 10)]
  }

  /** `str(i)` for any integer. */
  function IntToString(i: int): (r: string)
    ensures |r| > 0
    ensures forall k :: 0 <= k < |r| ==> IsDigit(r[k]) || r[k] == '-'
  {
    if i < 0 then "-" + NatToString(-i) else NatToString(i)
  }

  /** Distinct numbers print differently, so a number in a name identifies it. */
  lemma {:induction false} NatToStringInjective(a: nat, b: nat)
    requires NatToString(a) == NatToString(b)
    ensures a == b
    decreases a
  {
    var ra, rb := NatToString(a), NatToString(b);
    if a < 10 || b < 10 {
      assert |ra| == 1 && |rb| == 1;
      assert a < 10 && b < 10;
      assert ra[0] == DigitChar(a) && rb[0] == DigitChar(b);
    } else {
      assert ra == NatToString(a / 10) + [DigitChar(a % 10)];
      assert rb == NatToString(b / 10) + [DigitChar(b % 10)];
      assert NatToString(a / 10) == ra[..|ra| - 1] == rb[..|rb| - 1] == NatToString(b / 10);
      NatToStringInjective(a / 10, b / 10);
      assert DigitChar(a % 10) == DigitChar(b % 10);
    }
  }

  /** `s.split(sep)`: the pieces between separators, always at least one. */
  function Split(s: string, sep: char): (parts: seq<string>)
    ensures |parts| > 0
    ensures forall k :: 0 <= k < |parts| ==> sep !in parts[k]
    decreases |s|
  {
    if s == [] then [""]
    else
      var rest := Split(s[1..], sep);
      if s[0] == sep then [""] + rest else [[s[0]] + rest[0]] + rest[1..]
  }

  /** Splitting at a separator splits the two sides independently. */
  lemma {:induction false} SplitAppend(a: string, b: string, sep: char)
    ensures Split(a + [sep] + b, sep) == Split(a, sep) + Split(b, sep)
    decreases |a|
  {
    var s := a + [sep] + b;
    if a == [] {
      assert s[0] == sep && s[1..] == b;
    } else {
      assert s[0] == a[0] && s[1..] == a[1..] + [sep] + b;
      SplitAppend(a[1..], b, sep);
      if a[0] != sep {
        JoinFirst([a[0]], Split(a[1..], sep), Split(b, sep));
      }
    }
  }

  /** Gluing a prefix onto the first piece commutes with appending more pieces. */
  lemma JoinFirst(x: string, ra: seq<string>, rb: seq<string>)
    requires |ra| > 0
    ensures [x + (ra + rb)[0]] + (ra + rb)[1..] == ([x + ra[0]] + ra[1..]) + rb
  {
    assert (ra + rb)[0] == ra[0];
    assert (ra + rb)[1..] == ra[1..] + rb;
  }

  /** A text without the separator is one piece. */
  lemma {:induction false} SplitNoSep(s: string, sep: char)
    requires sep !in s
    ensures Split(s, sep) == [s]
    decreases |s|
  {
    if s != [] {
      assert sep !in s[1..];
      SplitNoSep(s[1..], sep);
      assert [s[0]] + s[1..] == s;
    }
  }
}

=== FILE: export.dfy ===
/**
  The reconciliation layer: pushing a local project tree to the remote
  platform (`export_content_block`, `export_issue`, `export_evidence` with
  `new_evidence`, `export_node`, `export_document_properties`, `update_item`,
  `get_node_id_from_file`).

  A `World` threads the session caches, the remote server and the local
  files through every call.  Local paths are sequences of components.  What
  the model does not compute is passed in through `Env`: the textile text of
  a file (the document converter), whether an attachment path exists on disk
  relative to a directory, and the INI parser.
 */
module Export {
  import opened Base
  import opened Names
  import opened Fields
  import opened Attachments
  import opened Remote

  type Path = seq<string>

  /** The component `up` levels above the last one: 0 is `path.name`, 1 `path.parent.name`, and so on; `""` past the root. */
  function Up(p: Path, up: nat): string {
    if up < |p| then p[|p| - 1 - up] else ""
  }

  function Parent(p: Path): Path {
    if p == [] then [] else p[..|p| - 1]
  }

  /** The two caches the exporter keeps between calls; an empty cache means "not fetched yet". */
  datatype Session = Session(issues: seq<Record>, nodes: seq<Node>)

  datatype World = World(session: Session, server: Server, files: map<Path, string>)

  datatype Env = Env(
    project: string,
    textile: (Path, string) -> string,
    onDisk: (Path, string) -> bool,
    properties: string -> Option<seq<(string, string)>>)

  /** The exceptions that escape an export and end the run. */
  datatype Crash =
    | MissingTitle(file: Path)
    | MissingUploadedFiles
    | MissingNode(name: string)
    | MissingPropertiesSection

  /** The issue list a lookup sees: the cache, fetched from the server only while it is empty. */
  function IssueCache(w: World): seq<Record> {
    if w.session.issues == [] then w.server.issues else w.session.issues
  }

  function NodeCache(w: World): seq<Node> {
    if w.session.nodes == [] then w.server.nodes else w.session.nodes
  }

  function FillIssues(w: World): World {
    w.(session := w.session.(issues := IssueCache(w)))
  }

  function FillNodes(w: World): World {
    w.(session := w.session.(nodes := NodeCache(w)))
  }

  /** `log'` is `log` with calls appended. */
  predicate Extends(log: seq<Call>, log': seq<Call>) {
    |log| <= |log'| && log'[..|log|] == log
  }

  lemma ExtendsTrans(log0: seq<Call>, log1: seq<Call>, log2: seq<Call>)
    requires Extends(log0, log1) && Extends(log1, log2)
    ensures Extends(log0, log2)
    ensures forall j :: 0 <= j < |log1| ==> log2[j] == log1[j]
  {
    assert log2[..|log0|] == log2[..|log1|][..|log0|];
    forall j | 0 <= j < |log1| ensures log2[j] == log1[j] {
      assert log2[j] == log2[..|log1|][j];
    }
  }

  /** Two extensions in a row, each only about `node`, make one. */
  lemma ChainAbout(log0: seq<Call>, log1: seq<Call>, log2: seq<Call>, node: string)
    requires Extends(log0, log1) && Extends(log1, log2)
    requires forall j :: |log0| <= j < |log1| ==> AboutNode(log1[j], node)
    requires forall j :: |log1| <= j < |log2| ==> AboutNode(log2[j], node)
    ensures Extends(log0, log2)
    ensures forall j :: |log0| <= j < |log2| ==> AboutNode(log2[j], node)
  {
    forall j | |log0| <= j < |log2|
      ensures AboutNode(log2[j], node)
    {
      if j < |log1| {
        assert log2[j] == log2[..|log1|][j] == log1[j];
      }
    }
    assert log2[..|log0|] == log2[..|log1|][..|log0|];
  }

  /** A call that writes evidence or attachments under `node`. */
  predicate AboutNode(c: Call, node: string) {
    (c.CreateEvidence? || c.UpdateEvidence? || c.CreateAttachments?) && c.node == node
  }

  /** The node id as the f-string `f"{node_id}"` prints it. */
  function NodeText(id: Option<string>): string {
    match id
    case Some(s) => s
    case None => "None"
  }

  function DiskAt(env: Env, dir: Path): string -> bool {
    x => env.onDisk(dir, x)
  }

  /** The upload batch `handle_attachments` builds for `content` on `node`, against the server's attachment list. */
  function Batch(env: Env, srv: Server, node: string, content: string, dir: Path): seq<Upload> {
    Uploads(Scan(content), AttachmentNames(srv, node), DiskAt(env, dir))
  }

  /** The content `handle_attachments` returns for `content` on `node`. */
  function Rewritten(env: Env, srv: Server, node: string, content: string, dir: Path): string {
    HandleAttachments(env.project, node, content, AttachmentNames(srv, node), DiskAt(env, dir)).content
  }

  /**
    `handle_attachments` with its remote effect: the content rewritten, and
    one `create_attachment` call for the node carrying the batch's file
    names, made only for a non-empty batch.
   */
  function Attach(env: Env, w: World, node: string, content: string, dir: Path): (r: (World, string))
    ensures r.1 == Rewritten(env, w.server, node, content, dir)
    ensures r.0.session == w.session && r.0.files == w.files
    ensures var batch := Batch(env, w.server, node, content, dir);
      && (batch == [] ==> r.0.server == w.server)
      && (batch != [] ==>
            && r.0.server.(attachments := w.server.attachments, log := w.server.log) == w.server
            && r.0.server.log == w.server.log + [CreateAttachments(node, UploadNames(batch))]
            && r.0.server.attachments == w.server.attachments[node := AttachmentNames(w.server, node) + UploadNames(batch)])
    ensures '!' !in content ==> r == (w, content)
  {
    NoBangNoAttachments(content);
    var h := HandleAttachments(env.project, node, content, AttachmentNames(w.server, node), DiskAt(env, dir));
    var srv := if h.uploads == [] then w.server else UploadFiles(w.server, node, UploadNames(h.uploads));
    (w.(server := srv), h.content)
  }

  /** `get_node_id_from_file`: the node a file's attachments belong to, after filling the node cache. */
  function NodeIdFromFile(w: World, path: Path): (r: Result<(World, Option<string>), Crash>)
    ensures r.Ok? ==> r.value.0 == FillNodes(w)
    ensures Up(path, 1) == "Content Blocks" ==>
      && (r.Err? <==> NoneMatching(NodeCache(w), NodeLabel, UploadedFiles))
      && forall k: nat :: FirstMatching(NodeCache(w), NodeLabel, UploadedFiles, k) ==>
           r.Ok? && r.value.1 == Some(IntToString(NodeCache(w)[k].id - 1))
    ensures Up(path, 1) != "Content Blocks" && Up(path, 2) == "Evidences" ==>
      && (r.Err? <==> NoneMatching(NodeCache(w), NodeLabel, Up(path, 3)))
      && forall k: nat :: FirstMatching(NodeCache(w), NodeLabel, Up(path, 3), k) ==>
           r.Ok? && r.value.1 == Some(IntToString(NodeCache(w)[k].id))
    ensures Up(path, 1) != "Content Blocks" && Up(path, 2) != "Evidences" ==> r == Ok((FillNodes(w), None))
  {
    var w1 := FillNodes(w);
    if Up(path, 1) == "Content Blocks" then
      match FirstMatch(w1.session.nodes, NodeLabel, UploadedFiles)
      case None => Err(MissingUploadedFiles)
      case Some(k) => Ok((w1, Some(IntToString(w1.session.nodes[k].id - 1))))
    else if Up(path, 2) == "Evidences" then
      match FirstMatch(w1.session.nodes, NodeLabel, Up(path, 3))
      case None => Err(MissingNode(Up(path, 3)))
      case Some(k) => Ok((w1, Some(IntToString(w1.session.nodes[k].id))))
    else Ok((w1, None))
  }

  /** The name of the node that stands for the project's uploaded files; content blocks use the node just before it. */
  const UploadedFiles: string := "Uploaded files"

  /** The textile text of a local file. */
  function Text(env: Env, w: World, path: Path): string
    requires path in w.files
  {
    env.textile(path, w.files[path])
  }

  /** A file with no text, or whose title is empty, is skipped. */
  predicate Skipped(content: string) {
    content == "" || GetTitle(content) == Ok("")
  }

  /** The create-or-update decision of `export_content_block` against the freshly listed blocks. */
  function WriteBlock(srv: Server, title: string, c: string): (r: Server)
    ensures |r.log| == |srv.log| + 1 && Extends(srv.log, r.log)
    ensures var last := r.log[|srv.log|];
      && (last.CreateContentBlock? || last.UpdateContentBlock?) && last.content == c
      && (NoneMatching(srv.blocks, RecordTitle, title) ==>
            last.CreateContentBlock? && last.title == title && last.newId == srv.nextId)
      && (forall k: nat :: FirstMatching(srv.blocks, RecordTitle, title, k) ==>
            last.UpdateContentBlock? && last.recordId == srv.blocks[k].id)
    ensures NoneMatching(srv.blocks, RecordTitle, title) ==>
      r.(log := srv.log) == srv.(blocks := srv.blocks + [Record(srv.nextId, title, c)], nextId := srv.nextId + 1)
    ensures !NoneMatching(srv.blocks, RecordTitle, title) ==> r.(log := srv.log) == srv
  {
    match FirstMatch(srv.blocks, RecordTitle, title)
    case None => CreateBlock(srv, title, c)
    case Some(k) => UpdateBlock(srv, srv.blocks[k].id, c)
  }

  /**
    One block write of text `c` for the node whose id prints as `node`, from
    server `srv` to `srv'`: the upload of the batch when it is not empty,
    then one block write carrying the rewritten text, a create under the
    title when no listed block matches and an update of the first match
    otherwise.  A create appends the block under the next id; nothing else
    on the server changes.
   */
  ghost predicate BlockOutcome(env: Env, srv: Server, srv': Server, node: string, title: string, c: string, dir: Path) {
    var batch := Batch(env, srv, node, c, dir);
    var c' := Rewritten(env, srv, node, c, dir);
    var log, log' := srv.log, srv'.log;
    && srv'.attachments
       == (if batch == [] then srv.attachments else srv.attachments[node := AttachmentNames(srv, node) + UploadNames(batch)])
    && srv'.(log := srv.log, attachments := srv.attachments)
       == (if NoneMatching(srv.blocks, RecordTitle, title)
           then srv.(blocks := srv.blocks + [Record(srv.nextId, title, c')], nextId := srv.nextId + 1)
           else srv)
    && Extends(log, log') && |log'| == |log| + (if batch == [] then 1 else 2)
    && (batch != [] ==> log'[|log|] == CreateAttachments(node, UploadNames(batch)))
    && var last := log'[|log'| - 1];
    && (last.CreateContentBlock? || last.UpdateContentBlock?)
    && last.content == c'
    && (NoneMatching(srv.blocks, RecordTitle, title) ==>
          last.CreateContentBlock? && last.title == title && last.newId == srv.nextId)
    && (forall k: nat :: FirstMatching(srv.blocks, RecordTitle, title, k) ==>
          last.UpdateContentBlock? && last.recordId == srv.blocks[k].id)
  }

  /** The write half of `export_content_block` once the node is known: attachments, then the block write. */
  function PushBlockTo(env: Env, w: World, node: string, dir: Path, title: string, c: string): (r: World)
    ensures r.files == w.files && r.session == w.session
    ensures BlockOutcome(env, w.server, r.server, node, title, c, dir)
  {
    var (w1, c1) := Attach(env, w, node, c, dir);
    var srv := WriteBlock(w1.server, title, c1);
    ExtendsTrans(w.server.log, w1.server.log, srv.log);
    w1.(server := srv)
  }

  /**
    The write half of `export_content_block`, once the title is known: node
    resolution, attachments, then a create or an update against the block
    list fetched afresh (blocks are re-listed on every call, not cached).
   */
  function PushBlock(env: Env, w: World, path: Path, title: string, c: string): (r: Result<World, Crash>)
    requires path in w.files
    ensures r.Err? <==> NodeIdFromFile(w, path).Err?
    ensures r.Ok? ==> r.value.files == w.files && r.value.session == FillNodes(w).session
    ensures r.Ok? ==> BlockOutcome(env, w.server, r.value.server, NodeText(NodeIdFromFile(w, path).value.1), title, c, Parent(path))
  {
    match NodeIdFromFile(w, path)
    case Err(e) => Err(e)
    case Ok(found) => Ok(PushBlockTo(env, found.0, NodeText(found.1), Parent(path), title, c))
  }

  /** `export_content_block`: create the block if no listed block matches its title, else update the first match. */
  function ExportContentBlock(env: Env, w: World, path: Path): (r: Result<World, Crash>)
    requires path in w.files
    ensures Skipped(Text(env, w, path)) ==> r == Ok(w)
    ensures var c := Text(env, w, path); c != "" && GetTitle(c).Err? ==> r == Err(MissingTitle(path))
    ensures var c := Text(env, w, path);
      !Skipped(c) && GetTitle(c).Ok? ==> r == PushBlock(env, w, path, GetTitle(c).value, c)
  {
    var c := Text(env, w, path);
    if c == "" then Ok(w)
    else match GetTitle(c)
      case Err(_) => Err(MissingTitle(path))
      case Ok(title) => if title == "" then Ok(w) else PushBlock(env, w, path, title, c)
  }

  /** `export_issue`: create the issue if no cached issue matches its title, else update the first match. */
  function ExportIssue(env: Env, w: World, path: Path): (r: Result<World, Crash>)
    requires path in w.files
    ensures r.Ok? ==> r.value.files == w.files && r.value.session.nodes == w.session.nodes
    ensures r.Ok? ==> r.value.session.issues in {w.session.issues, IssueCache(w)}
    ensures Skipped(Text(env, w, path)) ==> r == Ok(w)
    ensures var c := Text(env, w, path); r.Err? <==> c != "" && GetTitle(c).Err?
    ensures var c := Text(env, w, path);
      c != "" && GetTitle(c).Ok? && GetTitle(c).value != "" ==>
        var title, cache := GetTitle(c).value, IssueCache(w);
        && r.Ok? && r.value.session.issues == cache
        && (NoneMatching(cache, RecordTitle, title) ==>
              r.value.server == w.server.(issues := w.server.issues + [Record(w.server.nextId, title, c)],
                                          nextId := w.server.nextId + 1,
                                          log := w.server.log + [CreateIssue(c, w.server.nextId)]))
        && (!NoneMatching(cache, RecordTitle, title) ==> r.value.server.(log := w.server.log) == w.server)
        && (forall k: nat :: FirstMatching(cache, RecordTitle, title, k) ==>
              r.value.server.log == w.server.log + [UpdateIssue(cache[k].id, c)])
  {
    var c := Text(env, w, path);
    if c == "" then Ok(w)
    else match GetTitle(c)
      case Err(_) => Err(MissingTitle(path))
      case Ok(title) =>
        if title == "" then Ok(w)
        else
          var w1 := FillIssues(w);
          match FirstMatch(w1.session.issues, RecordTitle, title)
          case None => Ok(w1.(server := CreateIssueRecord(w1.server, title, c)))
          case Some(k) => Ok(w1.(server := UpdateIssueRecord(w1.server, w1.session.issues[k].id, c)))
  }

  /** `new_evidence`: create the evidence and append the id the server assigned to the local file. */
  function NewEvidence(w: World, node: string, issue: int, content: string, path: Path, erase: bool): (r: World)
    requires path in w.files
    ensures r.session == w.session
    ensures r.server == w.server.(evidence := w.server.evidence + [Evidence(w.server.nextId, node, issue, content)],
                                  nextId := w.server.nextId + 1,
                                  log := w.server.log + [CreateEvidence(node, issue, content, w.server.nextId)])
    ensures r.files == w.files[path := (if erase then Strip(EvidenceIdMarker, w.files[path]) else w.files[path])
                                       + EvidenceBlock(IntToString(w.server.nextId))]
  {
    var prior := if erase then Strip(EvidenceIdMarker, w.files[path]) else w.files[path];
    w.(server := CreateEvidenceRecord(w.server, node, issue, content),
       files := w.files[path := prior + EvidenceBlock(IntToString(w.server.nextId))])
  }

  /**
    The calls from index `base` of `log` on, and the file map `files'`, are
    the evidence write of content `c` for `path` against the state (`files`,
    `evidence`, `nextId`).  When `c` carries an EvidenceID, the first call
    updates that id with `c`; the server accepts it exactly when the node
    holds that id, and then nothing else happens.  A refused update is
    followed by a create of `c`, and the file has its old ids stripped and
    the new id appended.  When `c` carries no id, the only call is a create
    of `c`, and the new id is appended to the file.
   */
  ghost predicate EvidenceWrite(files: map<Path, string>, evidence: seq<Evidence>, nextId: int,
                                log: seq<Call>, base: nat, files': map<Path, string>,
                                node: string, issue: int, c: string, path: Path)
    requires path in files
  {
    var block := EvidenceBlock(IntToString(nextId));
    var created := CreateEvidence(node, issue, c, nextId);
    base <= |log| &&
    match EvidenceId(c)
    case None =>
      log[base..] == [created] && files' == files[path := files[path] + block]
    case Some(id) =>
      if HasEvidence(evidence, node, id) then
        log[base..] == [UpdateEvidence(node, issue, id, c, true)] && files' == files
      else
        && log[base..] == [UpdateEvidence(node, issue, id, c, false), created]
        && files' == files[path := Strip(EvidenceIdMarker, files[path]) + block]
  }

  /**
    What the evidence write of content `c` does to the server's records,
    from `srv` to `srv'`: a write that ends in a create appends the evidence
    under the next id and advances it; an accepted update changes neither.
    No other record, property or refusal changes.
   */
  ghost predicate EvidenceRecords(srv: Server, srv': Server, node: string, issue: int, c: string) {
    var created := match EvidenceId(c)
      case None => true
      case Some(id) => !HasEvidence(srv.evidence, node, id);
    && srv'.evidence == srv.evidence + (if created then [Evidence(srv.nextId, node, issue, c)] else [])
    && srv'.nextId == srv.nextId + (if created then 1 else 0)
    && srv'.(evidence := srv.evidence, nextId := srv.nextId, attachments := srv.attachments, log := srv.log) == srv
  }

  /**
    One evidence export of text `c` once the issue is found: the upload of
    the batch when it is not empty, then the evidence write of the rewritten
    text, all against the server `srv` and the files `files` before the export.
   */
  ghost predicate EvidenceOutcome(env: Env, srv: Server, files: map<Path, string>, r: World,
                                  node: string, issue: int, c: string, path: Path)
    requires path in files
  {
    var batch := Batch(env, srv, node, c, Parent(path));
    var log, log' := srv.log, r.server.log;
    var base := if batch == [] then |log| else |log| + 1;
    && Extends(log, log') && base <= |log'|
    && (batch != [] ==> log'[|log|] == CreateAttachments(node, UploadNames(batch)))
    && EvidenceWrite(files, srv.evidence, srv.nextId, log', base, r.files, node, issue,
                     Rewritten(env, srv, node, c, Parent(path)), path)
    && EvidenceRecords(srv, r.server, node, issue, Rewritten(env, srv, node, c, Parent(path)))
  }

  /** The create-or-update decision of `export_evidence` on its final content `c`. */
  function WriteEvidence(w: World, node: string, issue: int, c: string, path: Path): (r: World)
    requires path in w.files
    ensures r.session == w.session && Extends(w.server.log, r.server.log)
    ensures EvidenceWrite(w.files, w.server.evidence, w.server.nextId, r.server.log, |w.server.log|, r.files, node, issue, c, path)
    ensures EvidenceRecords(w.server, r.server, node, issue, c) && r.server.attachments == w.server.attachments
  {
    var n := |w.server.log|;
    match EvidenceId(c)
    case None =>
      var r := NewEvidence(w, node, issue, c, path, false);
      assert r.server.log[n..] == [CreateEvidence(node, issue, c, w.server.nextId)];
      r
    case Some(id) =>
      var held := HasEvidence(w.server.evidence, node, id);
      var w1 := w.(server := UpdateEvidenceRecord(w.server, node, issue, id, c));
      assert w1.server.log == w.server.log + [UpdateEvidence(node, issue, id, c, held)];
      if held then
        assert w1.server.log[n..] == [UpdateEvidence(node, issue, id, c, true)];
        w1
      else
        var r := NewEvidence(w1, node, issue, c, path, true);
        assert r.server.log == w.server.log + [UpdateEvidence(node, issue, id, c, false), CreateEvidence(node, issue, c, w.server.nextId)];
        assert r.server.log[n..] == [UpdateEvidence(node, issue, id, c, false), CreateEvidence(node, issue, c, w.server.nextId)];
        r
  }

  /** `handle_attachments` and then the evidence write, for the node whose id prints as `node`. */
  function PushEvidence(env: Env, w: World, node: string, issue: int, c: string, path: Path): (r: World)
    requires path in w.files
    ensures r.session == w.session
    ensures EvidenceOutcome(env, w.server, w.files, r, node, issue, c, path)
  {
    var (w1, c1) := Attach(env, w, node, c, Parent(path));
    var r := WriteEvidence(w1, node, issue, c1, path);
    var batch := Batch(env, w.server, node, c, Parent(path));
    assert w1.server.evidence == w.server.evidence && w1.server.nextId == w.server.nextId && w1.files == w.files;
    assert |w1.server.log| == (if batch == [] then |w.server.log| else |w.server.log| + 1);
    ExtendsTrans(w.server.log, w1.server.log, r.server.log);
    assert batch != [] ==> r.server.log[|w.server.log|] == w1.server.log[|w.server.log|];
    r
  }

  /** Every call of an evidence write is about `node`, and only `path` changes on disk. */
  lemma EvidenceWriteScope(files: map<Path, string>, evidence: seq<Evidence>, nextId: int,
                           log: seq<Call>, base: nat, files': map<Path, string>,
                           node: string, issue: int, c: string, path: Path)
    requires path in files
    requires EvidenceWrite(files, evidence, nextId, log, base, files', node, issue, c, path)
    ensures files'.Keys == files.Keys
    ensures forall q :: q in files && q != path ==> files'[q] == files[q]
    ensures forall j :: base <= j < |log| ==> AboutNode(log[j], node)
  {
    EvidenceWriteFiles(files, evidence, nextId, log, base, files', node, issue, c, path);
    EvidenceWriteCalls(files, evidence, nextId, log, base, files', node, issue, c, path);
    forall j | base <= j < |log|
      ensures AboutNode(log[j], node)
    {
      assert j == base || j == base + 1;
    }
  }

  lemma EvidenceWriteFiles(files: map<Path, string>, evidence: seq<Evidence>, nextId: int,
                           log: seq<Call>, base: nat, files': map<Path, string>,
                           node: string, issue: int, c: string, path: Path)
    requires path in files
    requires EvidenceWrite(files, evidence, nextId, log, base, files', node, issue, c, path)
    ensures path in files' && files' == files[path := files'[path]]
  {
    match EvidenceId(c)
    case None =>
    case Some(id) =>
      if HasEvidence(evidence, node, id) {
        assert files' == files[path := files[path]];
      }
  }

  lemma EvidenceWriteCalls(files: map<Path, string>, evidence: seq<Evidence>, nextId: int,
                           log: seq<Call>, base: nat, files': map<Path, string>,
                           node: string, issue: int, c: string, path: Path)
    requires path in files
    requires EvidenceWrite(files, evidence, nextId, log, base, files', node, issue, c, path)
    ensures base < |log| <= base + 2 && AboutNode(log[base], node)
    ensures base + 1 < |log| ==> AboutNode(log[base + 1], node)
  {
    assert log[base..][0] == log[base];
    if base + 1 < |log| {
      assert log[base..][1] == log[base + 1];
    }
  }

  lemma EvidenceOutcomeScope(env: Env, srv: Server, files: map<Path, string>, r: World,
                             node: string, issue: int, c: string, path: Path)
    requires path in files
    requires EvidenceOutcome(env, srv, files, r, node, issue, c, path)
    ensures r.files.Keys == files.Keys
    ensures forall q :: q in files && q != path ==> r.files[q] == files[q]
    ensures forall j :: |srv.log| <= j < |r.server.log| ==> AboutNode(r.server.log[j], node)
  {
    var log, log' := srv.log, r.server.log;
    var batch := Batch(env, srv, node, c, Parent(path));
    var base := if batch == [] then |log| else |log| + 1;
    EvidenceWriteScope(files, srv.evidence, srv.nextId, log', base, r.files, node, issue,
                       Rewritten(env, srv, node, c, Parent(path)), path);
    forall j | |log| <= j < |log'| ensures AboutNode(log'[j], node) {
      if j < base {
        assert j == |log| && batch != [];
      }
    }
  }

  /** `export_evidence` for one file under the node whose id prints as `node`, in the issue folder `issueName`. */
  function ExportEvidence(env: Env, w: World, node: string, issueName: string, path: Path): (r: World)
    requires path in w.files
    ensures r.files.Keys == w.files.Keys
    ensures forall q :: q in w.files && q != path ==> r.files[q] == w.files[q]
    ensures r.session.nodes == w.session.nodes && r.session.issues in {w.session.issues, IssueCache(w)}
    ensures Text(env, w, path) != "" ==> r.session.issues == IssueCache(w)
    ensures Extends(w.server.log, r.server.log)
    ensures forall j :: |w.server.log| <= j < |r.server.log| ==> AboutNode(r.server.log[j], node)
    ensures Text(env, w, path) == "" || NoneMatching(IssueCache(w), RecordTitle, issueName) ==>
      r.server == w.server && r.files == w.files
    ensures forall k: nat :: Text(env, w, path) != "" && FirstMatching(IssueCache(w), RecordTitle, issueName, k) ==>
      EvidenceOutcome(env, w.server, w.files, r, node, IssueCache(w)[k].id, Text(env, w, path), path)
  {
    var c := Text(env, w, path);
    if c == "" then w
    else
      var w1 := FillIssues(w);
      match FirstMatch(w1.session.issues, RecordTitle, issueName)
      case None => w1
      case Some(k) =>
        var r := PushEvidence(env, w1, node, w1.session.issues[k].id, c, path);
        EvidenceOutcomeScope(env, w1.server, w1.files, r, node, w1.session.issues[k].id, c, path);
        r
  }

  /** An issue folder under a node's `Evidences` folder: its name and its evidence files. */
  datatype IssueFolder = IssueFolder(name: string, files: seq<Path>)

  predicate Listed(files: map<Path, string>, folders: seq<IssueFolder>) {
    forall i, j :: 0 <= i < |folders| && 0 <= j < |folders[i].files| ==> folders[i].files[j] in files
  }

  function ExportFiles(env: Env, w: World, node: string, issueName: string, paths: seq<Path>): (r: World)
    requires forall j :: 0 <= j < |paths| ==> paths[j] in w.files
    ensures r.files.Keys == w.files.Keys
    ensures r.session.nodes == w.session.nodes
    ensures Extends(w.server.log, r.server.log)
    ensures forall j :: |w.server.log| <= j < |r.server.log| ==> AboutNode(r.server.log[j], node)
    decreases |paths|
  {
    if paths == [] then w
    else
      var w1 := ExportEvidence(env, w, node, issueName, paths[0]);
      var r := ExportFiles(env, w1, node, issueName, paths[1..]);
      ChainAbout(w.server.log, w1.server.log, r.server.log, node);
      r
  }

  function ExportFolders(env: Env, w: World, node: string, folders: seq<IssueFolder>): (r: World)
    requires Listed(w.files, folders)
    ensures r.files.Keys == w.files.Keys
    ensures r.session.nodes == w.session.nodes
    ensures Extends(w.server.log, r.server.log)
    ensures forall j :: |w.server.log| <= j < |r.server.log| ==> AboutNode(r.server.log[j], node)
    decreases |folders|
  {
    if folders == [] then w
    else
      assert forall j :: 0 <= j < |folders[0].files| ==> folders[0].files[j] in w.files;
      var w1 := ExportFiles(env, w, node, folders[0].name, folders[0].files);
      assert forall i :: 0 <= i < |folders| - 1 ==> folders[1..][i] == folders[i + 1];
      var r := ExportFolders(env, w1, node, folders[1..]);
      ChainAbout(w.server.log, w1.server.log, r.server.log, node);
      r
  }

  /**
    `export_node`: find the node by its folder name or create it, then export
    the evidence folders when the node folder has an `Evidences` folder
    (`evidences` is `None` when it has none).  A created node is not added to
    the node cache.
   */
  function ExportNode(env: Env, w: World, folder: Path, evidences: Option<seq<IssueFolder>>): (r: World)
    requires evidences.Some? ==> Listed(w.files, evidences.value)
    ensures r.session.nodes == NodeCache(w)
    ensures r.files.Keys == w.files.Keys && (evidences.None? ==> r.files == w.files)
    ensures Extends(w.server.log, r.server.log)
  {
    var w1 := FillNodes(w);
    var found := FindNode(w1, Up(folder, 0));
    var w2 := found.0;
    match evidences
    case None => w2
    case Some(folders) =>
      var r := ExportFolders(env, w2, IntToString(found.1), folders);
      ExtendsTrans(w.server.log, w2.server.log, r.server.log);
      r
  }

  /** A folder naming no cached node creates it first; every later call is under the new node's id. */
  lemma ExportNodeCreates(env: Env, w: World, folder: Path, evidences: Option<seq<IssueFolder>>)
    requires evidences.Some? ==> Listed(w.files, evidences.value)
    requires NoneMatching(NodeCache(w), NodeLabel, Up(folder, 0))
    ensures var log, log' := w.server.log, ExportNode(env, w, folder, evidences).server.log;
      && |log| < |log'| && log'[|log|] == CreateNode(Up(folder, 0), w.server.nextId)
      && forall j :: |log| < j < |log'| ==> AboutNode(log'[j], IntToString(w.server.nextId))
  {
    var w2 := FindNode(FillNodes(w), Up(folder, 0)).0;
    var r := ExportNode(env, w, folder, evidences);
    if evidences.Some? {
      ExtendsTrans(w.server.log, w2.server.log, r.server.log);
    }
  }

  /** A folder naming cached node `k` makes only calls under that node's id. */
  lemma ExportNodeFinds(env: Env, w: World, folder: Path, evidences: Option<seq<IssueFolder>>, k: nat)
    requires evidences.Some? ==> Listed(w.files, evidences.value)
    requires FirstMatching(NodeCache(w), NodeLabel, Up(folder, 0), k)
    ensures var log, log' := w.server.log, ExportNode(env, w, folder, evidences).server.log;
      forall j :: |log| <= j < |log'| ==> AboutNode(log'[j], IntToString(NodeCache(w)[k].id))
  {
  }

  /**
    The node-finding half of `export_node`: the id of the first cached node
    whose label matches `name`, or a fresh node created under that name.
   */
  function FindNode(w: World, name: string): (r: (World, int))
    ensures r.0.session == w.session && r.0.files == w.files
    ensures NoneMatching(w.session.nodes, NodeLabel, name) ==>
      && r.1 == w.server.nextId
      && r.0.server == w.server.(nodes := w.server.nodes + [Node(w.server.nextId, name)], nextId := w.server.nextId + 1,
                                 log := w.server.log + [CreateNode(name, w.server.nextId)])
    ensures forall k: nat :: FirstMatching(w.session.nodes, NodeLabel, name, k) ==> r == (w, w.session.nodes[k].id)
  {
    match FirstMatch(w.session.nodes, NodeLabel, name)
    case None => (w.(server := CreateNodeRecord(w.server, name)), w.server.nextId)
    case Some(k) => (w, w.session.nodes[k].id)
  }

  /** `export_document_properties`: one update per property, in order, carrying on past refused ones. */
  function ExportProperties(w: World, pairs: seq<(string, string)>): (r: World)
    ensures r.session == w.session && r.files == w.files
    ensures r.server.(properties := w.server.properties, log := w.server.log) == w.server
    ensures |r.server.log| == |w.server.log| + |pairs| && Extends(w.server.log, r.server.log)
    ensures forall k :: 0 <= k < |pairs| ==>
      r.server.log[|w.server.log| + k] == UpdateDocProp(pairs[k].0, pairs[k].1, pairs[k].0 !in w.server.refused)
    decreases |pairs|
  {
    if pairs == [] then w
    else
      var w1 := w.(server := UpdateProperty(w.server, pairs[0].0, pairs[0].1));
      var r := ExportProperties(w1, pairs[1..]);
      assert forall k :: 0 < k < |pairs| ==> pairs[1..][k - 1] == pairs[k];
      assert r.server.log[|w.server.log|] == w1.server.log[|w.server.log|];
      r
  }

  /** A property the server refuses, or one the file does not mention, keeps its remote value. */
  lemma {:induction false} PropertyUntouched(w: World, pairs: seq<(string, string)>, key: string)
    requires key in w.server.refused || forall j :: 0 <= j < |pairs| ==> pairs[j].0 != key
    ensures var props, props' := w.server.properties, ExportProperties(w, pairs).server.properties;
      (key in props' <==> key in props) && (key in props ==> props'[key] == props[key])
    decreases |pairs|
  {
    if pairs != [] {
      var w1 := w.(server := UpdateProperty(w.server, pairs[0].0, pairs[0].1));
      assert key in w1.server.refused || forall j :: 0 <= j < |pairs[1..]| ==> pairs[1..][j].0 != key by {
        if key !in w.server.refused {
          assert forall j :: 0 <= j < |pairs[1..]| ==> pairs[1..][j] == pairs[j + 1];
        }
      }
      PropertyUntouched(w1, pairs[1..], key);
    }
  }

  /** An accepted property takes the value of its last mention in the file. */
  lemma {:induction false} PropertyLastWins(w: World, pairs: seq<(string, string)>, k: nat)
    requires k < |pairs| && pairs[k].0 !in w.server.refused
    requires forall j :: k < j < |pairs| ==> pairs[j].0 != pairs[k].0
    ensures var props' := ExportProperties(w, pairs).server.properties;
      pairs[k].0 in props' && props'[pairs[k].0] == pairs[k].1
    decreases |pairs|
  {
    var w1 := w.(server := UpdateProperty(w.server, pairs[0].0, pairs[0].1));
    assert forall j :: 0 <= j < |pairs[1..]| ==> pairs[1..][j] == pairs[j + 1];
    if k == 0 {
      PropertyUntouched(w1, pairs[1..], pairs[0].0);
    } else {
      PropertyLastWins(w1, pairs[1..], k - 1);
    }
  }

  /** What `update_item` takes a path to be, decided in this order. */
  datatype Role = PropertiesFile | ContentBlockFile | IssueFile | EvidenceFile | Unrecognised

  function RoleOf(p: Path): (r: Role)
    ensures r == PropertiesFile <==> Up(p, 0) == "document_properties.ini"
    ensures r == ContentBlockFile <==> Up(p, 0) != "document_properties.ini" && Up(p, 1) == "Content Blocks"
    ensures r == IssueFile <==>
      Up(p, 0) != "document_properties.ini" && Up(p, 1) != "Content Blocks" && Up(p, 1) == "Issues"
    ensures r == EvidenceFile <==>
      Up(p, 0) != "document_properties.ini" && Up(p, 1) !in {"Content Blocks", "Issues"} && Up(p, 2) == "Evidences"
  {
    if Up(p, 0) == "document_properties.ini" then PropertiesFile
    else if Up(p, 1) == "Content Blocks" then ContentBlockFile
    else if Up(p, 1) == "Issues" then IssueFile
    else if Up(p, 2) == "Evidences" then EvidenceFile
    else Unrecognised
  }

  /** `export_document_properties` on a file: a crash without the section, else one update per parsed pair. */
  function ExportPropertiesFile(env: Env, w: World, path: Path): (r: Result<World, Crash>)
    requires path in w.files
    ensures r.Err? <==> env.properties(w.files[path]).None?
    ensures r.Err? ==> r.error == MissingPropertiesSection
    ensures forall pairs :: env.properties(w.files[path]) == Some(pairs) ==> r == Ok(ExportProperties(w, pairs))
  {
    match env.properties(w.files[path])
    case None => Err(MissingPropertiesSection)
    case Some(pairs) => Ok(ExportProperties(w, pairs))
  }

  /** `update_item`: export one file according to where it sits in the project tree. */
  function UpdateItem(env: Env, w: World, path: Path): (r: Result<World, Crash>)
    requires path in w.files
    ensures RoleOf(path) == Unrecognised ==> r == Ok(w)
    ensures RoleOf(path) == PropertiesFile ==> r == ExportPropertiesFile(env, w, path)
    ensures RoleOf(path) == IssueFile ==> r == ExportIssue(env, w, path)
    ensures RoleOf(path) == ContentBlockFile ==> r == ExportContentBlock(env, w, path)
    ensures r.Ok? ==> r.value.files.Keys == w.files.Keys
    ensures r.Ok? && RoleOf(path) != EvidenceFile ==> r.value.files == w.files
    ensures r.Ok? ==> forall q :: q in w.files && q != path ==> r.value.files[q] == w.files[q]
    ensures RoleOf(path) == EvidenceFile ==>
      && (r.Err? <==> NoneMatching(NodeCache(w), NodeLabel, Up(path, 3)))
      && forall k: nat :: FirstMatching(NodeCache(w), NodeLabel, Up(path, 3), k) ==>
           r.Ok? && forall j :: |w.server.log| <= j < |r.value.server.log| ==>
             AboutNode(r.value.server.log[j], IntToString(NodeCache(w)[k].id))
    ensures RoleOf(path) == EvidenceFile && NodeIdFromFile(w, path).Ok? ==>
      r == Ok(ExportEvidence(env, FillNodes(w), NodeText(NodeIdFromFile(w, path).value.1), Up(path, 1), path))
  {
    match RoleOf(path)
    case PropertiesFile => ExportPropertiesFile(env, w, path)
    case ContentBlockFile => ExportContentBlock(env, w, path)
    case IssueFile => ExportIssue(env, w, path)
    case EvidenceFile =>
      (match NodeIdFromFile(w, path)
       case Err(e) => Err(e)
       case Ok(found) => Ok(ExportEvidence(env, found.0, NodeText(found.1), Up(path, 1), path)))
    case Unrecognised => Ok(w)
  }
}

=== FILE: fields.dfy ===
/**
  Markup field extraction: the `#[Title]#` and `#[EvidenceID]#` patterns
  (`TITLE_REGEX`, `EVIDENCE_ID_REGEX`), used with `re.search` by `get_title`
  and `export_evidence` and with `re.sub(..., "")` by `new_evidence`.

  Both patterns have the shape  marker `#+` `[\r\n]+` `([^\r\n]+)`.  Greedy
  runs cannot backtrack usefully here (each run is followed by a character
  class it excludes), so a match at a position is decided by three maximal
  runs, which is what `FieldAt` scans.
 */
module Fields {
  import opened Base

  const TitleMarker: string := "#[Title]"
  const EvidenceIdMarker: string := "#[EvidenceID]"

  predicate IsHash(c: char) { c == '#' }
  predicate InLine(c: char) { !IsBreak(c) }

  /** A match: it starts at `start`; its captured value is `[valueStart, end)`, and the match ends at `end`. */
  datatype Field = Field(start: nat, valueStart: nat, end: nat)

  /**
    Declarative reading of the pattern at position `i` with captured value
    `s[vs..ve]`: the marker, one or more `#`, then one or more line breaks,
    then a non-empty value that runs to the end of its line.
   */
  ghost predicate IsField(marker: string, s: string, i: nat, vs: nat, ve: nat) {
    var m := i + |marker|;
    && m < vs < ve <= |s|
    && s[i..m] == marker
    && s[m] == '#'
    && IsBreak(s[vs - 1])
    && (forall k :: m <= k < vs ==> s[k] == '#' || IsBreak(s[k]))
    && (forall k, l :: m <= k < l < vs && IsBreak(s[k]) ==> IsBreak(s[l]))
    && (forall k :: vs <= k < ve ==> !IsBreak(s[k]))
    && (ve == |s| || IsBreak(s[ve]))
  }

  /** No match starts anywhere in `[lo, hi)`. */
  ghost predicate NoFieldIn(marker: string, s: string, lo: nat, hi: nat) {
    forall j, vs, ve :: lo <= j < hi ==> !IsField(marker, s, j, vs, ve)
  }

  /** The pattern tried at one position, as the regex engine does. */
  function FieldAt(marker: string, s: string, i: nat): (r: Option<Field>)
    requires i <= |s|
    ensures r.Some? ==> r.value.start == i && IsField(marker, s, i, r.value.valueStart, r.value.end)
  {
    var m := i + |marker|;
    if m < |s| && s[i..m] == marker then
      var h := Run(s, m, IsHash);
      var b := Run(s, h, IsBreak);
      var e := Run(s, b, InLine);
      if h == m || b == h || e == b then None
      else
        assert forall k :: m <= k < b ==> s[k] == '#' || IsBreak(s[k]) by {
          forall k | m <= k < b ensures s[k] == '#' || IsBreak(s[k]) {
            if k < h { assert IsHash(s[k]); } else { assert IsBreak(s[k]); }
          }
        }
        Some(Field(i, b, e))
    else None
  }

  /** The scan finds every match the declarative reading admits, with the same value. */
  lemma FieldAtComplete(marker: string, s: string, i: nat, vs: nat, ve: nat)
    requires IsField(marker, s, i, vs, ve)
    ensures FieldAt(marker, s, i) == Some(Field(i, vs, ve))
  {
    var m := i + |marker|;
    var h := Run(s, m, IsHash);
    assert h > m;
    assert h < vs;
    assert IsBreak(s[h]);
    RunUnique(s, h, vs, IsBreak);
    RunUnique(s, vs, ve, InLine);
  }

  /** At most one value is captured at any one position. */
  lemma FieldUnique(marker: string, s: string, i: nat, vs: nat, ve: nat, vs': nat, ve': nat)
    requires IsField(marker, s, i, vs, ve) && IsField(marker, s, i, vs', ve')
    ensures vs == vs' && ve == ve'
  {
    FieldAtComplete(marker, s, i, vs, ve);
    FieldAtComplete(marker, s, i, vs', ve');
  }

  lemma FieldAtNone(marker: string, s: string, i: nat)
    requires i <= |s|
    requires FieldAt(marker, s, i).None?
    ensures forall vs, ve :: !IsField(marker, s, i, vs, ve)
  {
    forall vs, ve | IsField(marker, s, i, vs, ve) ensures false {
      FieldAtComplete(marker, s, i, vs, ve);
    }
  }

  /** `re.search` from position `i`: the leftmost match starting at or after `i`. */
  function SearchFrom(marker: string, s: string, i: nat): (r: Option<Field>)
    requires i <= |s|
    ensures r.Some? ==> i <= r.value.start && IsField(marker, s, r.value.start, r.value.valueStart, r.value.end)
    ensures r.Some? ==> NoFieldIn(marker, s, i, r.value.start)
    ensures r.None? ==> NoFieldIn(marker, s, i, |s| + 1)
    decreases |s| - i
  {
    match FieldAt(marker, s, i)
    case Some(f) => Some(f)
    case None =>
      if i == |s| then
        NoFieldGrows(marker, s, i, i + 1);
        None
      else
        var r := SearchFrom(marker, s, i + 1);
        NoFieldGrows(marker, s, i, if r.Some? then r.value.start else |s| + 1);
        r
  }

  /** A position where the pattern fails joins the match-free range that follows it. */
  lemma NoFieldGrows(marker: string, s: string, i: nat, hi: nat)
    requires i < hi && i <= |s| && FieldAt(marker, s, i).None?
    requires NoFieldIn(marker, s, i + 1, hi)
    ensures NoFieldIn(marker, s, i, hi)
  {
    FieldAtNone(marker, s, i);
  }

  function Search(marker: string, s: string): (r: Option<Field>)
    ensures r.Some? ==> IsField(marker, s, r.value.start, r.value.valueStart, r.value.end)
    ensures r.Some? ==> NoFieldIn(marker, s, 0, r.value.start)
    ensures r.None? <==> NoFieldIn(marker, s, 0, |s| + 1)
  {
    SearchFrom(marker, s, 0)
  }

  /** The match `Search` reports is the first one the declarative reading admits. */
  lemma SearchFindsFirst(marker: string, s: string, i: nat, vs: nat, ve: nat)
    requires IsField(marker, s, i, vs, ve) && NoFieldIn(marker, s, 0, i)
    ensures Search(marker, s) == Some(Field(i, vs, ve))
  {
    var f := Search(marker, s).value;
    assert f.start == i;
    FieldUnique(marker, s, i, vs, ve, f.valueStart, f.end);
  }

  /** `get_title` raises when the pattern is absent (it reads `match.group(1)` before testing `match`). */
  datatype TitleError = NoTitleMarker

  /** A captured title that is itself the start of another field counts as no title. */
  function TitleOf(v: string): string {
    if |v| >= 2 && v[..2] == "#[" then "" else v
  }

  /** `get_title`. */
  function GetTitle(content: string): (r: Result<string, TitleError>)
    ensures r.Err? <==> NoFieldIn(TitleMarker, content, 0, |content| + 1)
    ensures forall i: nat, vs: nat, ve: nat :: IsField(TitleMarker, content, i, vs, ve) && NoFieldIn(TitleMarker, content, 0, i) ==>
      r == Ok(TitleOf(content[vs..ve]))
  {
    match Search(TitleMarker, content)
    case None => Err(NoTitleMarker)
    case Some(f) =>
      forall i: nat, vs: nat, ve: nat | IsField(TitleMarker, content, i, vs, ve) && NoFieldIn(TitleMarker, content, 0, i)
        ensures f == Field(i, vs, ve)
      {
        SearchFindsFirst(TitleMarker, content, i, vs, ve);
      }
      Ok(TitleOf(content[f.valueStart..f.end]))
  }

  /** The captured value of the first `#[EvidenceID]#` field, as `export_evidence` reads it. */
  function EvidenceId(content: string): (r: Option<string>)
    ensures r.None? <==> NoFieldIn(EvidenceIdMarker, content, 0, |content| + 1)
    ensures r.Some? ==> r.value != [] && forall k :: 0 <= k < |r.value| ==> !IsBreak(r.value[k])
    ensures forall i: nat, vs: nat, ve: nat :: IsField(EvidenceIdMarker, content, i, vs, ve) && NoFieldIn(EvidenceIdMarker, content, 0, i) ==>
      r == Some(content[vs..ve])
  {
    match Search(EvidenceIdMarker, content)
    case None => None
    case Some(f) =>
      forall i: nat, vs: nat, ve: nat | IsField(EvidenceIdMarker, content, i, vs, ve) && NoFieldIn(EvidenceIdMarker, content, 0, i)
        ensures f == Field(i, vs, ve)
      {
        SearchFindsFirst(EvidenceIdMarker, content, i, vs, ve);
      }
      Some(content[f.valueStart..f.end])
  }

  /** The block `new_evidence` appends to a local evidence file once the remote assigns `id`. */
  function EvidenceBlock(id: string): string {
    "\n" + EvidenceIdMarker + "#\n\n" + id + "\n"
  }

  /** `re.sub(pattern, "", s[i..])`: every match, scanning left to right, deleted. */
  function StripFrom(marker: string, s: string, i: nat): (r: string)
    requires i <= |s|
    ensures |r| <= |s| - i
    decreases |s| - i
  {
    if i == |s| then []
    else match FieldAt(marker, s, i)
      case Some(f) => StripFrom(marker, s, f.end)
      case None => [s[i]] + StripFrom(marker, s, i + 1)
  }

  function Strip(marker: string, s: string): string {
    StripFrom(marker, s, 0)
  }

  lemma {:induction false} StripFromNoField(marker: string, s: string, i: nat)
    requires i <= |s|
    requires NoFieldIn(marker, s, i, |s| + 1)
    ensures StripFrom(marker, s, i) == s[i..]
    decreases |s| - i
  {
    if i < |s| {
      StripFromNoField(marker, s, i + 1);
      assert [s[i]] + s[i + 1..] == s[i..];
    }
  }

  lemma {:induction false} StripFromShrinks(marker: string, s: string, i: nat, j: nat, vs: nat, ve: nat)
    requires i <= j && IsField(marker, s, j, vs, ve)
    ensures |StripFrom(marker, s, i)| < |s| - i
    decreases |s| - i
  {
    if i < j {
      match FieldAt(marker, s, i)
      case Some(f) =>
      case None => StripFromShrinks(marker, s, i + 1, j, vs, ve);
    } else {
      FieldAtComplete(marker, s, j, vs, ve);
    }
  }

  /** Stripping leaves a text unchanged exactly when it held no match. */
  lemma StripChangesIffField(marker: string, s: string)
    ensures Strip(marker, s) == s <==> Search(marker, s).None?
  {
    match Search(marker, s)
    case None => StripFromNoField(marker, s, 0);
    case Some(f) => StripFromShrinks(marker, s, 0, f.start, f.valueStart, f.end);
  }

  /** A text that never mentions the marker holds no field. */
  lemma NoMarkerNoField(marker: string, t: string)
    requires forall j :: !OccursAt(marker, t, j)
    ensures Search(marker, t).None?
  {
    forall j: nat, vs: nat, ve: nat | j < |t| + 1 ensures !IsField(marker, t, j, vs, ve) {
      assert !OccursAt(marker, t, j);
    }
  }

  lemma MarkerAbsentNoField(marker: string, t: string, s: string)
    requires |marker| > 0 && marker[0] == '#'
    requires forall k :: 0 <= k < |marker| ==> !IsBreak(marker[k])
    requires forall j :: !OccursAt(marker, t, j)
    requires |s| > 0 && IsBreak(s[0])
    ensures NoFieldIn(marker, t + s, 0, |t| + 1)
  {
    var u := t + s;
    forall j: nat, vs: nat, ve: nat | j < |t| + 1 ensures !IsField(marker, u, j, vs, ve) {
      if j + |marker| <= |t| {
        assert !OccursAt(marker, t, j);
        assert u[j..j + |marker|] == t[j..j + |marker|];
      } else if j + |marker| <= |u| {
        var k := |t| - j;
        assert u[j..j + |marker|][k] == u[|t|] == s[0];
      }
    }
  }

  /**
    Round trip of the local EvidenceID: a text that does not mention the
    EvidenceID marker, once the block for `id` is appended, yields `id` when
    the next export searches it.
   */
  lemma EvidenceBlockRoundTrip(t: string, id: string)
    requires forall j :: !OccursAt(EvidenceIdMarker, t, j)
    requires id != [] && forall k :: 0 <= k < |id| ==> !IsBreak(id[k])
    ensures EvidenceId(t + EvidenceBlock(id)) == Some(id)
  {
    var u := t + EvidenceBlock(id);
    var i := |t| + 1;
    var vs := i + |EvidenceIdMarker| + 3;
    AppendedField(t, EvidenceIdMarker, id);
    assert IsField(EvidenceIdMarker, u, i, vs, vs + |id|);
    MarkerAbsentNoField(EvidenceIdMarker, t, EvidenceBlock(id));
    assert NoFieldIn(EvidenceIdMarker, u, 0, i);
    assert u[vs..vs + |id|] == id;
    SearchFindsFirst(EvidenceIdMarker, u, i, vs, vs + |id|);
  }

  /** The appended block is a match for any marker, capturing exactly `id`. */
  lemma AppendedField(t: string, marker: string, id: string)
    requires id != [] && forall k :: 0 <= k < |id| ==> !IsBreak(id[k])
    ensures var u := t + ("\n" + marker + "#\n\n" + id + "\n");
      var vs := |t| + 1 + |marker| + 3;
      IsField(marker, u, |t| + 1, vs, vs + |id|) && u[vs..vs + |id|] == id
  {
    var u := t + ("\n" + marker + "#\n\n" + id + "\n");
    var i, n := |t| + 1, |marker|;
    var vs := i + n + 3;
    var ve := vs + |id|;
    assert u[i..i + n] == marker;
    assert u[i + n] == '#' && u[i + n + 1] == '\n' && u[i + n + 2] == '\n';
    assert u[vs..ve] == id;
    assert forall k :: vs <= k < ve ==> u[k] == id[k - vs];
    assert ve < |u| && u[ve] == '\n';
  }
}

=== FILE: import.dfy ===
/**
  Local naming on import: where `import_*` writes each record, the text of
  `document_properties.ini`, and the probe `add_issue` runs for a free
  evidence file name.

  Paths are built the way pathlib builds them from f-strings: a cleaned name
  that comes out empty contributes no component.
 */
module Import {
  import opened Base
  import opened Names
  import opened Export

  const Textile: string := ".textile"

  /** A component that neither stays in place nor climbs: not empty, not `.` or `..`, no separator. */
  predicate Safe(c: string) {
    c != "" && c != "." && c != ".." && '/' !in c
  }

  /** `r` lies inside folder `root`: it extends it with safe components only. */
  predicate Under(root: Path, r: Path) {
    |root| <= |r| && r[..|root|] == root && forall k :: |root| <= k < |r| ==> Safe(r[k])
  }

  /** Appending safe components stays inside the folder. */
  lemma UnderExtend(root: Path, p: Path, tail: Path)
    requires Under(root, p) && forall k :: 0 <= k < |tail| ==> Safe(tail[k])
    ensures Under(root, p + tail)
  {
    var r := p + tail;
    assert r[..|root|] == p[..|root|];
    forall k | |root| <= k < |r|
      ensures Safe(r[k])
    {
      if k < |p| { assert r[k] == p[k]; } else { assert r[k] == tail[k - |p|]; }
    }
  }

  /** A cleaned name holds neither `.` nor `/`, so it is safe whenever it is not empty. */
  lemma CleanedSafe(s: string)
    ensures var c := CleanFilename(s);
      && '.' !in c && '/' !in c
      && (c != "" ==> Safe(c))
      && Safe(c + Textile)
  {
    var c := CleanFilename(s);
    CleanFilenameIsLegal(s);
    assert !Legal('.') && !Legal('/');
    if c != "" {
      assert c[0] != '.';
    }
    assert forall k :: 0 <= k < |c + Textile| ==> (c + Textile)[k] != '/' by {
      forall k | 0 <= k < |c + Textile|
        ensures (c + Textile)[k] != '/'
      {
        if k < |c| { assert (c + Textile)[k] == c[k]; } else { assert (c + Textile)[k] == Textile[k - |c|]; }
      }
    }
  }

  /** `f"{folder}/{clean_filename(name)}"` as components: nothing when the cleaned name is empty. */
  function Component(name: string): (r: Path)
    ensures |r| <= 1
    ensures r == [] <==> CleanFilename(name) == ""
    ensures forall k :: 0 <= k < |r| ==> Safe(r[k]) && SameName(r[k], name)
  {
    CleanedSafe(name);
    CleanedNameMatches(name);
    var c := CleanFilename(name);
    if c == "" then [] else [c]
  }

  /** `f"{clean_filename(name)}.textile"`: never empty, never the properties file. */
  function FileName(name: string): (r: string)
    ensures Safe(r) && r != "document_properties.ini"
    ensures |r| >= |Textile| && r[|r| - |Textile|..] == Textile
  {
    CleanedSafe(name);
    var r := CleanFilename(name) + Textile;
    assert r[|r| - |Textile|..] == Textile;
    assert r[|r| - 1] == 'e' != "document_properties.ini"[22];
    r
  }

  /** `import_project`: the project folder, named after the cleaned project name, inside the destination. */
  function ProjectPath(destination: Path, name: string): (r: Path)
    ensures Under(destination, r) && |r| <= |destination| + 1
  {
    UnderExtend(destination, destination, Component(name));
    destination + Component(name)
  }

  /** `import_content_blocks`: `<project>/Content Blocks/<title>.textile`; exporting it again treats it as a block. */
  function BlockPath(project: Path, title: string): (r: Path)
    ensures Under(project, r) && |r| == |project| + 2
    ensures RoleOf(r) == ContentBlockFile
  {
    UnderExtend(project, project, ["Content Blocks", FileName(title)]);
    project + ["Content Blocks", FileName(title)]
  }

  /** `import_issues`: `<project>/Issues/<title>.textile`; exporting it again treats it as an issue. */
  function IssuePath(project: Path, title: string): (r: Path)
    ensures Under(project, r) && |r| == |project| + 2
    ensures RoleOf(r) == IssueFile
  {
    UnderExtend(project, project, ["Issues", FileName(title)]);
    project + ["Issues", FileName(title)]
  }

  /** `import_nodes`: `<project>/Nodes/<nodeName>`. */
  function NodePath(project: Path, nodeName: string): (r: Path)
    ensures Under(project, r)
    ensures CleanFilename(nodeName) != "" ==> |r| == |project| + 2 && SameName(r[|r| - 1], nodeName)
  {
    UnderExtend(project, project, ["Nodes"] + Component(nodeName));
    assert project + ["Nodes"] + Component(nodeName) == project + (["Nodes"] + Component(nodeName));
    project + ["Nodes"] + Component(nodeName)
  }

  /** The file name of the `index`-th evidence of a node (counted from 0 across all its issues). */
  function EvidenceName(index: nat, issue: string): (r: string)
    ensures Safe(r) && r != "document_properties.ini"
  {
    var n := NatToString(index + 1);
    assert '/' !in n by {
      forall k | 0 <= k < |n| ensures n[k] != '/' { assert IsDigit(n[k]); }
    }
    var f := FileName(issue);
    var r := "Evidence-" + (n + "-" + f);
    assert r[|r| - 1] == f[|f| - 1] == 'e' != "document_properties.ini"[22];
    r
  }

  /**
    `import_nodes`: `<project>/Nodes/<nodeName>/Evidences/<issue>/Evidence-<index+1>-<issue>.textile`.
   */
  function EvidencePath(project: Path, nodeName: string, index: nat, issue: string): (r: Path)
    ensures Under(project, r)
    ensures |r| > 0 && r[|r| - 1] == EvidenceName(index, issue)
  {
    var node, tail := NodePath(project, nodeName), ["Evidences"] + Component(issue) + [EvidenceName(index, issue)];
    UnderExtend(project, node, tail);
    node + tail
  }

  /**
    Exporting an imported evidence file again reads the issue from its folder
    and the node from three levels up, and both name what they were imported
    from; the file is dispatched as evidence unless the issue folder is
    itself called "Content Blocks" or "Issues".
   */
  lemma EvidencePathResolves(project: Path, nodeName: string, index: nat, issue: string)
    requires CleanFilename(issue) != ""
    ensures var r := EvidencePath(project, nodeName, index, issue);
      && Up(r, 2) == "Evidences"
      && Up(r, 1) == CleanFilename(issue) && SameName(Up(r, 1), issue)
      && (RoleOf(r) == EvidenceFile <==> Up(r, 1) !in {"Content Blocks", "Issues"})
      && (CleanFilename(nodeName) != "" ==> Up(r, 3) == CleanFilename(nodeName) && SameName(Up(r, 3), nodeName))
  {
    CleanedNameMatches(issue);
    CleanedNameMatches(nodeName);
    EvidenceTail(project, nodeName, index, issue);
  }

  /** The last four components of an evidence path, when the issue name survives cleaning. */
  lemma EvidenceTail(project: Path, nodeName: string, index: nat, issue: string)
    requires CleanFilename(issue) != ""
    ensures var r := EvidencePath(project, nodeName, index, issue);
      && |r| >= 4 && r[|r| - 1] == EvidenceName(index, issue)
      && r[|r| - 2] == CleanFilename(issue) && r[|r| - 3] == "Evidences"
      && r[|r| - 4] == if CleanFilename(nodeName) == "" then "Nodes" else CleanFilename(nodeName)
  {
    var node := NodePath(project, nodeName);
    var r := EvidencePath(project, nodeName, index, issue);
    assert Component(issue) == [CleanFilename(issue)];
    assert r == node + ["Evidences", CleanFilename(issue), EvidenceName(index, issue)];
    assert node[|node| - 1] == if CleanFilename(nodeName) == "" then "Nodes" else CleanFilename(nodeName);
  }

  /** A `-` falls where a longer run of digits still has a digit. */
  lemma DashInsideDigits(sa: string, x: string, sb: string, y: string)
    requires forall k :: 0 <= k < |sb| ==> IsDigit(sb[k])
    requires |sa| < |sb|
    ensures sa + "-" + x != sb + "-" + y
  {
    assert (sa + "-" + x)[|sa|] == '-';
    assert (sb + "-" + y)[|sa|] == sb[|sa|];
    assert IsDigit(sb[|sa|]);
  }

  /** The numbers printed in two evidence file names are told apart by the `-` after them. */
  lemma NumberedNameInjective(a: nat, b: nat, x: string, y: string)
    requires NatToString(a) + "-" + x == NatToString(b) + "-" + y
    ensures a == b
  {
    var sa, sb := NatToString(a), NatToString(b);
    if |sa| < |sb| {
      DashInsideDigits(sa, x, sb, y);
    } else if |sb| < |sa| {
      DashInsideDigits(sb, y, sa, x);
    }
    assert sa == (sa + "-" + x)[..|sa|] == sb;
    NatToStringInjective(a, b);
  }

  lemma PrefixCancel(p: string, a: string, b: string)
    requires p + a == p + b
    ensures a == b
  {
    assert a == (p + a)[|p|..];
    assert b == (p + b)[|p|..];
  }

  /** Two different indexes give two different evidence file names, whatever the issues. */
  lemma EvidenceNamesDistinct(i: nat, j: nat, issue1: string, issue2: string)
    requires i != j
    ensures EvidenceName(i, issue1) != EvidenceName(j, issue2)
  {
    var ra, rb := NatToString(i + 1) + "-" + FileName(issue1), NatToString(j + 1) + "-" + FileName(issue2);
    if EvidenceName(i, issue1) == EvidenceName(j, issue2) {
      PrefixCancel("Evidence-", ra, rb);
      NumberedNameInjective(i + 1, j + 1, FileName(issue1), FileName(issue2));
    }
  }

  /**
    Evidence files of one node never overwrite each other: the index counts
    across every evidence of the node, so two different indexes give two
    different files, whatever issues they belong to.
   */
  lemma EvidencePathsDistinct(project: Path, nodeName: string, i: nat, j: nat, issue1: string, issue2: string)
    requires i != j
    ensures EvidencePath(project, nodeName, i, issue1) != EvidencePath(project, nodeName, j, issue2)
  {
    EvidenceNamesDistinct(i, j, issue1, issue2);
  }

  /** Two block titles land in the same file exactly when they clean to the same name. */
  lemma BlockPathsCollide(project: Path, t1: string, t2: string)
    ensures BlockPath(project, t1) == BlockPath(project, t2) <==> CleanFilename(t1) == CleanFilename(t2)
  {
    var p, q := BlockPath(project, t1), BlockPath(project, t2);
    if p == q {
      var a, b := CleanFilename(t1), CleanFilename(t2);
      assert a + Textile == p[|p| - 1] == q[|q| - 1] == b + Textile;
      assert a == (a + Textile)[..|a|];
      assert b == (b + Textile)[..|b|];
    }
  }

  // ---------------------------------------------------------------------------
  // document_properties.ini

  const PropertiesHeader: string := "[DOCUMENT_PROPERTIES]"

  /** The document properties as the API lists them: one dictionary per property, in order. */
  function Flatten(dicts: seq<seq<(string, string)>>): seq<(string, string)> {
    if dicts == [] then [] else dicts[0] + Flatten(dicts[1..])
  }

  function PropertyLines(pairs: seq<(string, string)>): string {
    if pairs == [] then "" else pairs[0].0 + "=" + pairs[0].1 + "\n" + PropertyLines(pairs[1..])
  }

  /** `import_document_properties`: the section header, then one `key=value` line per pair. */
  function PropertiesText(dicts: seq<seq<(string, string)>>): string {
    PropertiesHeader + "\n" + PropertyLines(Flatten(dicts))
  }

  /** A pair that fits on its own `key=value` line and reads back as itself. */
  predicate LinePair(p: (string, string)) {
    '=' !in p.0 && '\n' !in p.0 && '\n' !in p.1
  }

  /** The index of the first `c` in `s`, if any. */
  function FirstIndex(s: string, c: char): (r: Option<nat>)
    ensures r.None? <==> c !in s
    ensures r.Some? ==> r.value < |s| && s[r.value] == c && c !in s[..r.value]
    decreases |s|
  {
    if s == [] then None
    else if s[0] == c then Some(0)
    else match FirstIndex(s[1..], c)
      case None => None
      case Some(i) =>
        assert s[..i + 1] == [s[0]] + s[1..][..i];
        Some(i + 1)
  }

  /** Reads one line back: the key up to the first `=`, the value after it. */
  function ParseLine(line: string): Option<(string, string)> {
    match FirstIndex(line, '=')
    case None => None
    case Some(i) => Some((line[..i], line[i + 1..]))
  }

  function ParseLines(lines: seq<string>): Option<seq<(string, string)>> {
    if lines == [] then Some([])
    else
      var head, rest := ParseLine(lines[0]), ParseLines(lines[1..]);
      if head.Some? && rest.Some? then Some([head.value] + rest.value) else None
  }

  /**
    How `configparser` reads the file back, for the pairs `IniPairs` admits:
    the header line, `key=value` lines split at the first `=`, and the final
    line break.
   */
  function ReadProperties(text: string): Option<seq<(string, string)>> {
    var lines := Split(text, '\n');
    if |lines| < 2 || lines[0] != PropertiesHeader || lines[|lines| - 1] != "" then None
    else ParseLines(lines[1..|lines| - 1])
  }

  function Lines(pairs: seq<(string, string)>): seq<string> {
    if pairs == [] then [] else [pairs[0].0 + "=" + pairs[0].1] + Lines(pairs[1..])
  }

  lemma {:induction false} SplitPropertyLines(pairs: seq<(string, string)>)
    requires forall k :: 0 <= k < |pairs| ==> LinePair(pairs[k])
    ensures Split(PropertyLines(pairs), '\n') == Lines(pairs) + [""]
  {
    if pairs != [] {
      var line := pairs[0].0 + "=" + pairs[0].1;
      assert '\n' !in line by {
        assert forall k :: 0 <= k < |line| ==> line[k] in pairs[0].0 || line[k] == '=' || line[k] in pairs[0].1;
      }
      assert PropertyLines(pairs) == line + ['\n'] + PropertyLines(pairs[1..]);
      SplitAppend(line, PropertyLines(pairs[1..]), '\n');
      SplitNoSep(line, '\n');
      SplitPropertyLines(pairs[1..]);
    }
  }

  lemma ParseOneLine(p: (string, string))
    requires LinePair(p)
    ensures ParseLine(p.0 + "=" + p.1) == Some(p)
  {
    var line := p.0 + "=" + p.1;
    assert line[|p.0|] == '=';
    assert FirstIndex(line, '=') == Some(|p.0|);
    assert line[..|p.0|] == p.0 && line[|p.0| + 1..] == p.1;
  }

  lemma {:induction false} ParseAllLines(pairs: seq<(string, string)>)
    requires forall k :: 0 <= k < |pairs| ==> LinePair(pairs[k])
    ensures ParseLines(Lines(pairs)) == Some(pairs)
  {
    if pairs != [] {
      var lines := Lines(pairs);
      ParseOneLine(pairs[0]);
      ParseAllLines(pairs[1..]);
      assert lines[1..] == Lines(pairs[1..]);
      assert ParseLines(lines) == Some([pairs[0]] + pairs[1..]);
      assert [pairs[0]] + pairs[1..] == pairs;
    }
  }

  /** A first line without a break splits off the rest. */
  lemma SplitFirstLine(first: string, rest: string)
    requires '\n' !in first
    ensures Split(first + "\n" + rest, '\n') == [first] + Split(rest, '\n')
  {
    SplitAppend(first, rest, '\n');
    SplitNoSep(first, '\n');
  }

  /** Reading the file back splits it into the header, the pair lines, and the final empty line. */
  lemma PropertiesLines(header: string, pairs: seq<(string, string)>)
    requires '\n' !in header
    requires forall k :: 0 <= k < |pairs| ==> LinePair(pairs[k])
    ensures Split(header + "\n" + PropertyLines(pairs), '\n') == [header] + Lines(pairs) + [""]
  {
    SplitPropertyLines(pairs);
    SplitFirstLine(header, PropertyLines(pairs));
  }

  /**
    A value character `configparser` keeps as it is: printable ASCII, which
    every ASCII-compatible locale encoding decodes as written, except the
    `%` that interpolation would reject.
   */
  predicate ValueChar(c: char) {
    ' ' <= c <= '~' && c != '%'
  }

  /** A key character `configparser` keeps as it is: a lower-case ASCII letter, a digit, `_`, `-` or `.`. */
  predicate KeyChar(c: char) {
    'a' <= c <= 'z' || '0' <= c <= '9' || c in {'_', '-', '.'}
  }

  /**
    A pair whose `key=value` line `configparser` reads back as the same pair:
    a non-empty key of characters it neither lower-cases, strips, nor takes
    for a delimiter, a comment or a section; a value of printable ASCII
    without `%` and without a space at either end, which `str.strip` would remove.
   */
  predicate IniPair(p: (string, string)) {
    && p.0 != [] && (forall k :: 0 <= k < |p.0| ==> KeyChar(p.0[k]))
    && (forall k :: 0 <= k < |p.1| ==> ValueChar(p.1[k]))
    && (p.1 != [] ==> p.1[0] != ' ' && p.1[|p.1| - 1] != ' ')
  }

  /** Pairs `configparser` reads back unchanged: each pair on its own, and no key twice, which strict reading rejects. */
  predicate IniPairs(pairs: seq<(string, string)>) {
    && (forall k :: 0 <= k < |pairs| ==> IniPair(pairs[k]))
    && (forall i, j :: 0 <= i < j < |pairs| ==> pairs[i].0 != pairs[j].0)
  }

  lemma IniPairOnLine(p: (string, string))
    requires IniPair(p)
    ensures LinePair(p)
  {
    forall k | 0 <= k < |p.0| ensures p.0[k] != '=' && p.0[k] != '\n' {
      assert KeyChar(p.0[k]);
    }
    forall k | 0 <= k < |p.1| ensures p.1[k] != '\n' {
      assert ValueChar(p.1[k]);
    }
  }

  /**
    Reading the file back yields exactly the listed pairs, in order, for the
    pairs `configparser` returns unchanged.
   */
  lemma PropertiesRoundTrip(dicts: seq<seq<(string, string)>>)
    requires IniPairs(Flatten(dicts))
    ensures ReadProperties(PropertiesText(dicts)) == Some(Flatten(dicts))
  {
    var pairs := Flatten(dicts);
    forall k | 0 <= k < |pairs| ensures LinePair(pairs[k]) {
      IniPairOnLine(pairs[k]);
    }
    assert '\n' !in PropertiesHeader;
    PropertiesLines(PropertiesHeader, pairs);
    var lines := [PropertiesHeader] + Lines(pairs) + [""];
    assert lines[1..|lines| - 1] == Lines(pairs);
    ParseAllLines(pairs);
  }


  // ---------------------------------------------------------------------------
  // add_issue: the next free evidence name

  function DigitValue(c: char): (d: nat)
    requires IsDigit(c)
    ensures d < 10 && DigitChar(d) == c
  {
    (c as int - '0' as int) as nat
  }

  const FirstStem: string := "Evidence"

  /** The stem tried after `stem`: a trailing digit `d` becomes `d+1`, anything else gives `Evidence2`. */
  function NextStem(stem: string): (r: string)
    ensures r != stem
    ensures |r| > 0 && IsDigit(r[|r| - 1])
  {
    if stem != "" && IsDigit(stem[|stem| - 1]) then
      var d := DigitValue(stem[|stem| - 1]);
      var r := stem[..|stem| - 1] + NatToString(d + 1);
      assert d + 1 < 10 ==> r[|r| - 1] == DigitChar(d + 1) != stem[|stem| - 1];
      assert d + 1 == 10 ==> |r| == |stem| + 1;
      r
    else "Evidence2"
  }

  /** The `n`-th stem `add_issue` probes. */
  function Probe(n: nat): string {
    if n == 0 then FirstStem else NextStem(Probe(n - 1))
  }

  /** Probes grow: by length first, then by their trailing digit. */
  function Rank(stem: string): nat {
    10 * |stem| + if stem != "" && IsDigit(stem[|stem| - 1]) then DigitValue(stem[|stem| - 1]) else 0
  }

  lemma NextRankGrows(n: nat)
    ensures Rank(Probe(n)) < Rank(Probe(n + 1))
  {
    var s := Probe(n);
    if n > 0 {
      var d := DigitValue(s[|s| - 1]);
      var r := Probe(n + 1);
      if d + 1 < 10 {
        assert r[|r| - 1] == DigitChar(d + 1);
        assert DigitValue(r[|r| - 1]) == d + 1;
      }
    } else {
      assert s[|s| - 1] == 'e';
    }
  }

  lemma {:induction false} RankIncreasing(m: nat, n: nat)
    requires m < n
    ensures Rank(Probe(m)) < Rank(Probe(n))
    decreases n - m
  {
    NextRankGrows(m);
    if m + 1 < n {
      RankIncreasing(m + 1, n);
    }
  }

  /** The probe never revisits a stem. */
  lemma ProbesDistinct(m: nat, n: nat)
    requires m != n
    ensures Probe(m) != Probe(n)
  {
    if m < n { RankIncreasing(m, n); } else { RankIncreasing(n, m); }
  }

  function Ahead(existing: set<string>, stem: string): set<string> {
    set x | x in existing && Rank(x) >= Rank(stem)
  }

  lemma Shrinks(a: set<string>, b: set<string>, x: string)
    requires a <= b && x in b && x !in a
    ensures |a| < |b|
  {
    assert b == a + (b - a);
    assert x in b - a;
  }

  /** Every stem probed before the `n`-th is already taken. */
  ghost predicate Taken(existing: set<string>, n: nat) {
    forall m :: 0 <= m < n ==> Probe(m) in existing
  }

  lemma TakenStep(existing: set<string>, n: nat)
    requires Taken(existing, n) && Probe(n) in existing
    ensures Taken(existing, n + 1)
  {
  }

  /** A taken probe drops out of the stems still ahead once the probe moves on. */
  lemma AheadShrinks(existing: set<string>, n: nat)
    requires Probe(n) in existing
    ensures |Ahead(existing, Probe(n + 1))| < |Ahead(existing, Probe(n))|
  {
    NextRankGrows(n);
    var a, b := Ahead(existing, Probe(n + 1)), Ahead(existing, Probe(n));
    assert forall x :: x in a ==> x in b;
    Shrinks(a, b, Probe(n));
  }

  /**
    `add_issue`'s loop: starting from `Evidence`, the first probed stem not
    already taken, together with the number of stems tried before it.
   */
  method FreshStem(existing: set<string>) returns (stem: string, tries: nat)
    ensures stem == Probe(tries) && stem !in existing
    ensures Taken(existing, tries)
  {
    stem, tries := FirstStem, 0;
    while stem in existing
      invariant stem == Probe(tries)
      invariant Taken(existing, tries)
      decreases |Ahead(existing, stem)|
    {
      AheadShrinks(existing, tries);
      TakenStep(existing, tries);
      stem, tries := NextStem(stem), tries + 1;
    }
  }
}

=== FILE: names.dfy ===
/**
  Name sanitising and matching (`clean_filename`, `get_item_from_dict_list`).
  Every create-versus-update decision, and every lookup of a node by folder
  name, compares names through `SameName`.
 */
module Names {
  import opened Base

  /** The characters that cannot appear in a (Windows) file path, in the order they are removed. */
  const Illegal: string := "<>:]\"/\\|?*."

  predicate Legal(c: char) { c !in Illegal }

  /** `s.replace(c, "")` for a one-character pattern. */
  function RemoveChar(s: string, c: char): (r: string)
    ensures c !in r
    decreases |s|
  {
    if s == [] then []
    else if s[0] == c then RemoveChar(s[1..], c)
    else [s[0]] + RemoveChar(s[1..], c)
  }

  /** One `replace` per character of `cs` from index `i` on, in order, as the loop in `clean_filename` does. */
  function RemoveEach(s: string, cs: string, i: nat): string
    requires i <= |cs|
    decreases |cs| - i
  {
    if i == |cs| then s else RemoveEach(RemoveChar(s, cs[i]), cs, i + 1)
  }

  /** Reference definition: a single pass keeping exactly the characters not in `cs`, in order. */
  function Keep(s: string, cs: string): (r: string)
    decreases |s|
  {
    if s == [] then []
    else if s[0] in cs then Keep(s[1..], cs)
    else [s[0]] + Keep(s[1..], cs)
  }

  lemma {:induction false} KeepOneMore(s: string, c: char, cs: string)
    ensures Keep(RemoveChar(s, c), cs) == Keep(s, [c] + cs)
    decreases |s|
  {
    if s != [] {
      KeepOneMore(s[1..], c, cs);
    }
  }

  lemma {:induction false} RemoveEachIsKeep(s: string, cs: string, i: nat)
    requires i <= |cs|
    ensures RemoveEach(s, cs, i) == Keep(s, cs[i..])
    decreases |cs| - i
  {
    if i == |cs| {
      KeepNothing(s, cs[i..]);
    } else {
      RemoveEachIsKeep(RemoveChar(s, cs[i]), cs, i + 1);
      KeepOneMore(s, cs[i], cs[i + 1..]);
      assert [cs[i]] + cs[i + 1..] == cs[i..];
    }
  }

  lemma {:induction false} KeepNothing(s: string, cs: string)
    requires cs == []
    ensures Keep(s, cs) == s
    decreases |s|
  {
    if s != [] {
      KeepNothing(s[1..], cs);
      assert [s[0]] + s[1..] == s;
    }
  }

  /** `clean_filename`: the text with every character of `Illegal` deleted and all others kept in order. */
  function CleanFilename(s: string): (r: string)
    ensures r == Keep(s, Illegal)
  {
    RemoveEachIsKeep(s, Illegal, 0);
    RemoveEach(s, Illegal, 0)
  }

  lemma {:induction false} KeepExcludes(s: string, cs: string)
    ensures forall k :: 0 <= k < |Keep(s, cs)| ==> Keep(s, cs)[k] !in cs
    ensures |Keep(s, cs)| <= |s|
    decreases |s|
  {
    if s != [] {
      KeepExcludes(s[1..], cs);
    }
  }

  lemma {:induction false} KeepIdentity(s: string, cs: string)
    ensures Keep(s, cs) == s <==> forall k :: 0 <= k < |s| ==> s[k] !in cs
    decreases |s|
  {
    if s != [] {
      KeepIdentity(s[1..], cs);
      KeepExcludes(s[1..], cs);
      if s[0] in cs {
        assert |Keep(s, cs)| < |s|;
      } else {
        assert [s[0]] + s[1..] == s;
        assert forall k :: 1 <= k < |s| ==> s[k] == s[1..][k - 1];
      }
    }
  }

  /** The cleaned name contains no illegal character and is no longer than the input. */
  lemma CleanFilenameIsLegal(s: string)
    ensures forall k :: 0 <= k < |CleanFilename(s)| ==> Legal(CleanFilename(s)[k])
    ensures |CleanFilename(s)| <= |s|
  {
    KeepExcludes(s, Illegal);
  }

  /** A name is left unchanged exactly when it had no illegal character. */
  lemma CleanFilenameFixes(s: string)
    ensures CleanFilename(s) == s <==> forall k :: 0 <= k < |s| ==> Legal(s[k])
  {
    KeepIdentity(s, Illegal);
  }

  /** Cleaning twice is cleaning once. */
  lemma CleanFilenameIdempotent(s: string)
    ensures CleanFilename(CleanFilename(s)) == CleanFilename(s)
  {
    CleanFilenameIsLegal(s);
    CleanFilenameFixes(CleanFilename(s));
  }

  /**
    The matching key, `clean_filename(s).lower()`, computed in one pass:
    illegal characters dropped, the others lower-cased.
   */
  function Key(s: string): (r: string)
    decreases |s|
  {
    if s == [] then []
    else if s[0] in Illegal then Key(s[1..])
    else [LowerChar(s[0])] + Key(s[1..])
  }

  /** Two names denote the same entity when their keys agree. */
  predicate SameName(a: string, b: string) { Key(a) == Key(b) }

  /** The one-pass key is the source's two steps: sanitise, then lower-case. */
  lemma {:induction false} KeyIsLowerClean(s: string)
    ensures Key(s) == Lower(CleanFilename(s))
    decreases |s|
  {
    if s != [] {
      KeyIsLowerClean(s[1..]);
    }
  }

  /** Lower-casing first gives the same key: no illegal character is a letter. */
  lemma {:induction false} KeyOfLower(s: string)
    ensures Key(Lower(s)) == Key(s)
    decreases |s|
  {
    if s != [] {
      KeyOfLower(s[1..]);
      LowerCharIllegal(s[0]);
      var t := Lower(s);
      assert t[0] == LowerChar(s[0]) && t[1..] == Lower(s[1..]);
    }
  }

  /** Lower-casing neither makes nor unmakes an illegal character. */
  lemma LowerCharIllegal(c: char)
    ensures (LowerChar(c) in Illegal) == (c in Illegal)
  {
  }

  /** Matching ignores case: names that lower-case alike match. */
  lemma MatchIgnoresCase(a: string, b: string)
    requires Lower(a) == Lower(b)
    ensures SameName(a, b)
  {
    KeyOfLower(a);
    KeyOfLower(b);
  }

  /** A file or folder named after a remote title matches that title again. */
  lemma CleanedNameMatches(s: string)
    ensures SameName(CleanFilename(s), s)
  {
    KeyIsLowerClean(s);
    KeyIsLowerClean(CleanFilename(s));
    CleanFilenameIdempotent(s);
  }

  /** No item's key matches `wanted`. */
  ghost predicate NoneMatching<T>(items: seq<T>, key: T -> string, wanted: string) {
    forall j :: 0 <= j < |items| ==> !SameName(key(items[j]), wanted)
  }

  /** Item `k` is the first whose key matches `wanted`. */
  ghost predicate FirstMatching<T>(items: seq<T>, key: T -> string, wanted: string, k: nat) {
    k < |items| && SameName(key(items[k]), wanted) && forall j :: 0 <= j < k ==> !SameName(key(items[j]), wanted)
  }

  /** `get_item_from_dict_list`: the index of the first item whose key matches `wanted`, if any. */
  function FirstMatch<T>(items: seq<T>, key: T -> string, wanted: string): (r: Option<nat>)
    ensures r.Some? ==> FirstMatching(items, key, wanted, r.value)
    ensures r.None? <==> NoneMatching(items, key, wanted)
    ensures forall k: nat :: FirstMatching(items, key, wanted, k) ==> r == Some(k)
  {
    var r := FirstMatchFrom(items, key, wanted, 0);
    assert forall k: nat :: FirstMatching(items, key, wanted, k) ==> r == Some(k) by {
      forall k: nat | FirstMatching(items, key, wanted, k) ensures r == Some(k) {
      }
    }
    r
  }

  /** No item in `items[lo..hi]` has a key matching `wanted`. */
  ghost predicate Unmatched<T>(items: seq<T>, key: T -> string, wanted: string, lo: nat, hi: nat)
    requires hi <= |items|
  {
    forall j :: lo <= j < hi ==> !SameName(key(items[j]), wanted)
  }

  function FirstMatchFrom<T>(items: seq<T>, key: T -> string, wanted: string, from: nat): (r: Option<nat>)
    requires from <= |items|
    ensures r.Some? ==> from <= r.value < |items| && SameName(key(items[r.value]), wanted)
    ensures r.Some? ==> Unmatched(items, key, wanted, from, r.value)
    ensures r.None? <==> Unmatched(items, key, wanted, from, |items|)
    decreases |items| - from
  {
    if from == |items| then None
    else if SameName(key(items[from]), wanted) then Some(from)
    else FirstMatchFrom(items, key, wanted, from + 1)
  }

  /** Looking up an item by its own cleaned name finds it, or an earlier item of the same name. */
  lemma LookupByCleanedName<T>(items: seq<T>, key: T -> string, i: nat)
    requires i < |items|
    ensures FirstMatch(items, key, CleanFilename(key(items[i]))).Some?
    ensures FirstMatch(items, key, CleanFilename(key(items[i]))).value <= i
  {
    CleanedNameMatches(key(items[i]));
  }
}

=== FILE: remote.dfy ===
/**
  The remote platform as abstract state: the records the API lists, the
  attachments of each node, and a log of every write call in order.

  Creates append a record under a fresh id and report that id in the log.
  Updates are recorded in the log only; nothing this model observes reads a
  record's content back.  Two writes can be refused, because the code reacts
  to their failure: updating an evidence whose id the node does not hold, and
  updating a document property the server refuses.
 */
module Remote {
  import opened Base

  /** A content block or an issue, keyed by its title. */
  datatype Record = Record(id: int, title: string, content: string)

  datatype Node = Node(id: int, name: string)

  datatype Evidence = Evidence(id: int, node: string, issue: int, content: string)

  /** One write call, with what the server answered where the code uses the answer. */
  datatype Call =
    | CreateContentBlock(content: string, title: string, newId: int)
    | UpdateContentBlock(recordId: int, content: string)
    | CreateIssue(content: string, newId: int)
    | UpdateIssue(recordId: int, content: string)
    | CreateNode(name: string, newId: int)
    | CreateEvidence(node: string, issue: int, content: string, newId: int)
    | UpdateEvidence(node: string, issue: int, evidenceId: string, content: string, accepted: bool)
    | UpdateDocProp(key: string, value: string, accepted: bool)
    | CreateAttachments(node: string, files: seq<string>)

  datatype Server = Server(
    blocks: seq<Record>,
    issues: seq<Record>,
    nodes: seq<Node>,
    evidence: seq<Evidence>,
    attachments: map<string, seq<string>>,
    properties: map<string, string>,
    refused: set<string>,
    nextId: int,
    log: seq<Call>)

  function RecordTitle(r: Record): string { r.title }

  function NodeLabel(n: Node): string { n.name }

  /** `get_all_attachments`: the file names already stored on a node. */
  function AttachmentNames(srv: Server, node: string): seq<string> {
    if node in srv.attachments then srv.attachments[node] else []
  }

  /** The node holds an evidence whose id prints as `id`. */
  predicate HasEvidence(evidence: seq<Evidence>, node: string, id: string) {
    exists k :: 0 <= k < |evidence| && evidence[k].node == node && IntToString(evidence[k].id) == id
  }

  function CreateBlock(srv: Server, title: string, content: string): Server {
    srv.(blocks := srv.blocks + [Record(srv.nextId, title, content)], nextId := srv.nextId + 1,
         log := srv.log + [CreateContentBlock(content, title, srv.nextId)])
  }

  function UpdateBlock(srv: Server, id: int, content: string): Server {
    srv.(log := srv.log + [UpdateContentBlock(id, content)])
  }

  /** The server files a new issue under the title its content carries. */
  function CreateIssueRecord(srv: Server, title: string, content: string): Server {
    srv.(issues := srv.issues + [Record(srv.nextId, title, content)], nextId := srv.nextId + 1,
         log := srv.log + [CreateIssue(content, srv.nextId)])
  }

  function UpdateIssueRecord(srv: Server, id: int, content: string): Server {
    srv.(log := srv.log + [UpdateIssue(id, content)])
  }

  function CreateNodeRecord(srv: Server, name: string): Server {
    srv.(nodes := srv.nodes + [Node(srv.nextId, name)], nextId := srv.nextId + 1,
         log := srv.log + [CreateNode(name, srv.nextId)])
  }

  function CreateEvidenceRecord(srv: Server, node: string, issue: int, content: string): Server {
    srv.(evidence := srv.evidence + [Evidence(srv.nextId, node, issue, content)], nextId := srv.nextId + 1,
         log := srv.log + [CreateEvidence(node, issue, content, srv.nextId)])
  }

  function UpdateEvidenceRecord(srv: Server, node: string, issue: int, id: string, content: string): Server {
    srv.(log := srv.log + [UpdateEvidence(node, issue, id, content, HasEvidence(srv.evidence, node, id))])
  }

  function UpdateProperty(srv: Server, key: string, value: string): Server {
    var accepted := key !in srv.refused;
    srv.(properties := if accepted then srv.properties[key := value] else srv.properties,
         log := srv.log + [UpdateDocProp(key, value, accepted)])
  }

  function UploadFiles(srv: Server, node: string, names: seq<string>): Server {
    srv.(attachments := srv.attachments[node := AttachmentNames(srv, node) + names],
         log := srv.log + [CreateAttachments(node, names)])
  }
}

=== FILE: sessions.dfy ===
/**
  Properties of whole export sessions: what two exports in a row do, given
  the way the session caches are filled (only while empty, never refreshed
  after a create) and the way evidence ids are written back to disk.
 */
module Sessions {
  import opened Base
  import opened Names
  import opened Fields
  import opened Attachments
  import opened Remote
  import opened Export

  /** A file whose textile text is its own content (no conversion). */
  ghost predicate Verbatim(env: Env, path: Path) {
    forall x :: env.textile(path, x) == x
  }

  /** An issue file whose title matches no cached issue creates it and leaves the cache as filled. */
  lemma IssueCreated(env: Env, w: World, p: Path, title: string)
    requires p in w.files && title != ""
    requires Text(env, w, p) != "" && GetTitle(Text(env, w, p)) == Ok(title)
    requires NoneMatching(IssueCache(w), RecordTitle, title)
    ensures var r := ExportIssue(env, w, p);
      && r.Ok? && r.value.files == w.files && r.value.session.issues == IssueCache(w)
      && r.value.server.nextId == w.server.nextId + 1
      && r.value.server.issues == w.server.issues + [Record(w.server.nextId, title, Text(env, w, p))]
      && r.value.server.log == w.server.log + [CreateIssue(Text(env, w, p), w.server.nextId)]
  {
  }

  /** Two calls appended one after the other. */
  lemma AppendTwo(log: seq<Call>, x: Call, y: Call)
    ensures log + [x] + [y] == log + [x, y]
  {
  }

  /**
    With the issue cache already filled and no cached issue of that title,
    two local issue files with the same title both create: the first create
    does not reach the cache.
   */
  lemma DuplicateTitlesBothCreate(env: Env, w: World, p: Path, q: Path, title: string)
    requires p in w.files && q in w.files && title != ""
    requires Text(env, w, p) != "" && GetTitle(Text(env, w, p)) == Ok(title)
    requires Text(env, w, q) != "" && GetTitle(Text(env, w, q)) == Ok(title)
    requires IssueCache(w) != [] && NoneMatching(IssueCache(w), RecordTitle, title)
    ensures ExportIssue(env, w, p).Ok?
    ensures var w1 := ExportIssue(env, w, p).value;
      && q in w1.files && ExportIssue(env, w1, q).Ok?
      && ExportIssue(env, w1, q).value.server.log
         == w.server.log + [CreateIssue(Text(env, w, p), w.server.nextId), CreateIssue(Text(env, w, q), w.server.nextId + 1)]
  {
    IssueCreated(env, w, p, title);
    var w1 := ExportIssue(env, w, p).value;
    assert Text(env, w1, q) == Text(env, w, q);
    IssueCreated(env, w1, q, title);
    AppendTwo(w.server.log, CreateIssue(Text(env, w, p), w.server.nextId), CreateIssue(Text(env, w, q), w.server.nextId + 1));
  }

  /**
    With an empty remote issue list, the cache stays empty after the first
    create, so the second file of the same title re-lists the issues, finds
    the one just created and updates it.
   */
  lemma EmptyRemoteSecondUpdates(env: Env, w: World, p: Path, q: Path, title: string)
    requires p in w.files && q in w.files && title != ""
    requires Text(env, w, p) != "" && GetTitle(Text(env, w, p)) == Ok(title)
    requires Text(env, w, q) != "" && GetTitle(Text(env, w, q)) == Ok(title)
    requires w.session.issues == [] && w.server.issues == []
    ensures ExportIssue(env, w, p).Ok?
    ensures var w1 := ExportIssue(env, w, p).value;
      && q in w1.files && ExportIssue(env, w1, q).Ok?
      && ExportIssue(env, w1, q).value.server.log
         == w.server.log + [CreateIssue(Text(env, w, p), w.server.nextId), UpdateIssue(w.server.nextId, Text(env, w, q))]
  {
    IssueCreated(env, w, p, title);
    SecondIssueUpdates(env, w, ExportIssue(env, w, p).value, q, title,
                       Record(w.server.nextId, title, Text(env, w, p)), CreateIssue(Text(env, w, p), w.server.nextId));
  }

  /** After the first create on an empty remote, the only listed issue is the new one, and the second file updates it. */
  lemma SecondIssueUpdates(env: Env, w: World, w1: World, q: Path, title: string, created: Record, x: Call)
    requires q in w.files && title != ""
    requires Text(env, w, q) != "" && GetTitle(Text(env, w, q)) == Ok(title)
    requires created.id == w.server.nextId && created.title == title
    requires w1.files == w.files && w1.session.issues == [] && w1.server.issues == [created]
    requires w1.server.log == w.server.log + [x]
    ensures q in w1.files && ExportIssue(env, w1, q).Ok?
    ensures ExportIssue(env, w1, q).value.server.log == w.server.log + [x, UpdateIssue(w.server.nextId, Text(env, w, q))]
  {
    assert FirstMatching(IssueCache(w1), RecordTitle, title, 0);
    assert Text(env, w1, q) == Text(env, w, q);
    AppendTwo(w.server.log, x, UpdateIssue(w.server.nextId, Text(env, w, q)));
  }

  /** A block without attachment references, once its node resolves, is written as it is. */
  lemma PushPlainBlock(env: Env, w: World, path: Path, title: string, c: string)
    requires path in w.files && '!' !in c && NodeIdFromFile(w, path).Ok?
    ensures PushBlock(env, w, path, title, c) == Ok(FillNodes(w).(server := WriteBlock(w.server, title, c)))
  {
    var found := NodeIdFromFile(w, path).value;
    assert Attach(env, found.0, NodeText(found.1), c, Parent(path)) == (found.0, c);
  }

  /** A block file whose title matches no listed block creates one. */
  lemma PlainBlockCreates(env: Env, w: World, p: Path, title: string)
    requires p in w.files && title != ""
    requires Text(env, w, p) != "" && GetTitle(Text(env, w, p)) == Ok(title) && '!' !in Text(env, w, p)
    requires NoneMatching(w.server.blocks, RecordTitle, title) && NodeIdFromFile(w, p).Ok?
    ensures var r := ExportContentBlock(env, w, p);
      && r.Ok? && r.value.files == w.files && NodeCache(r.value) == NodeCache(w)
      && r.value.server.blocks == w.server.blocks + [Record(w.server.nextId, title, Text(env, w, p))]
      && r.value.server.log == w.server.log + [CreateContentBlock(Text(env, w, p), title, w.server.nextId)]
  {
    PushPlainBlock(env, w, p, title, Text(env, w, p));
  }

  /** A block file whose title matches listed block `k` updates it. */
  lemma PlainBlockUpdates(env: Env, w: World, q: Path, title: string, k: nat)
    requires q in w.files && title != ""
    requires Text(env, w, q) != "" && GetTitle(Text(env, w, q)) == Ok(title) && '!' !in Text(env, w, q)
    requires FirstMatching(w.server.blocks, RecordTitle, title, k) && NodeIdFromFile(w, q).Ok?
    ensures ExportContentBlock(env, w, q).Ok?
    ensures ExportContentBlock(env, w, q).value.server.log
      == w.server.log + [UpdateContentBlock(w.server.blocks[k].id, Text(env, w, q))]
  {
    PushPlainBlock(env, w, q, title, Text(env, w, q));
  }

  /**
    The second of two block files of the same title, exported after the first
    created block `created` at the end of the block list, updates it.
   */
  lemma SecondBlockUpdates(env: Env, w: World, w1: World, q: Path, title: string, created: Record, x: Call)
    requires q in w.files && Up(q, 1) == "Content Blocks" && title != ""
    requires Text(env, w, q) != "" && GetTitle(Text(env, w, q)) == Ok(title) && '!' !in Text(env, w, q)
    requires NoneMatching(w.server.blocks, RecordTitle, title) && created.id == w.server.nextId && created.title == title
    requires !NoneMatching(NodeCache(w), NodeLabel, UploadedFiles)
    requires w1.files == w.files && NodeCache(w1) == NodeCache(w)
    requires w1.server.blocks == w.server.blocks + [created] && w1.server.log == w.server.log + [x]
    ensures q in w1.files && ExportContentBlock(env, w1, q).Ok?
    ensures ExportContentBlock(env, w1, q).value.server.log
      == w.server.log + [x, UpdateContentBlock(w.server.nextId, Text(env, w, q))]
  {
    assert Text(env, w1, q) == Text(env, w, q);
    assert NodeIdFromFile(w1, q).Ok?;
    var k := |w.server.blocks|;
    assert FirstMatching(w1.server.blocks, RecordTitle, title, k) by {
      assert w1.server.blocks[k] == created;
      assert forall j :: 0 <= j < k ==> w1.server.blocks[j] == w.server.blocks[j];
    }
    PlainBlockUpdates(env, w1, q, title, k);
    AppendTwo(w.server.log, x, UpdateContentBlock(w.server.nextId, Text(env, w, q)));
  }

  /**
    Content blocks are re-listed on every export, so of two block files with
    the same title the first creates the block and the second updates it.
   */
  lemma BlocksRelistedSecondUpdates(env: Env, w: World, p: Path, q: Path, title: string)
    requires p in w.files && q in w.files && title != ""
    requires Up(p, 1) == "Content Blocks" && Up(q, 1) == "Content Blocks"
    requires Text(env, w, p) != "" && GetTitle(Text(env, w, p)) == Ok(title) && '!' !in Text(env, w, p)
    requires Text(env, w, q) != "" && GetTitle(Text(env, w, q)) == Ok(title) && '!' !in Text(env, w, q)
    requires NoneMatching(w.server.blocks, RecordTitle, title)
    requires !NoneMatching(NodeCache(w), NodeLabel, UploadedFiles)
    ensures ExportContentBlock(env, w, p).Ok?
    ensures var w1 := ExportContentBlock(env, w, p).value;
      && q in w1.files && ExportContentBlock(env, w1, q).Ok?
      && ExportContentBlock(env, w1, q).value.server.log
         == w.server.log + [CreateContentBlock(Text(env, w, p), title, w.server.nextId),
                            UpdateContentBlock(w.server.nextId, Text(env, w, q))]
  {
    assert NodeIdFromFile(w, p).Ok?;
    PlainBlockCreates(env, w, p, title);
    SecondBlockUpdates(env, w, ExportContentBlock(env, w, p).value, q, title,
                       Record(w.server.nextId, title, Text(env, w, p)), CreateContentBlock(Text(env, w, p), title, w.server.nextId));
  }

  /** The id text the server assigns never contains a `!`. */
  lemma BlockHasNoBang(t: string, n: int)
    requires '!' !in t
    ensures '!' !in t + EvidenceBlock(IntToString(n))
  {
    var id := IntToString(n);
    assert forall k :: 0 <= k < |id| ==> id[k] != '!';
    assert t + EvidenceBlock(id) == t + "\n" + EvidenceIdMarker + "#\n\n" + id + "\n";
  }

  /**
    The EvidenceID round trip: an evidence file without an id is created and
    gets the new id appended; exporting it again updates that very evidence
    and leaves the file as it is.
   */
  lemma EvidenceRoundTrip(env: Env, w: World, node: string, issueName: string, path: Path, k: nat)
    requires path in w.files && Verbatim(env, path)
    requires w.files[path] != "" && '!' !in w.files[path]
    requires forall j :: !OccursAt(EvidenceIdMarker, w.files[path], j)
    requires FirstMatching(IssueCache(w), RecordTitle, issueName, k)
    ensures var t, n, issue := w.files[path], w.server.nextId, IssueCache(w)[k].id;
      var w1 := ExportEvidence(env, w, node, issueName, path);
      && w1.server.log == w.server.log + [CreateEvidence(node, issue, t, n)]
      && w1.files == w.files[path := t + EvidenceBlock(IntToString(n))]
      && var w2 := ExportEvidence(env, w1, node, issueName, path);
         && w2.server.log == w1.server.log + [UpdateEvidence(node, issue, IntToString(n), w1.files[path], true)]
         && w2.files == w1.files
  {
    var t, n, issue := w.files[path], w.server.nextId, IssueCache(w)[k].id;
    var id := IntToString(n);
    NoMarkerNoField(EvidenceIdMarker, t);
    assert Text(env, w, path) == t;
    var w1 := ExportEvidence(env, w, node, issueName, path);
    assert w1.server.log == w.server.log + [CreateEvidence(node, issue, t, n)];
    assert w1.files[path] == t + EvidenceBlock(id);
    assert w1.session.issues == IssueCache(w) && IssueCache(w1) == IssueCache(w);
    assert w1.server.evidence == w.server.evidence + [Evidence(n, node, issue, t)];
    assert HasEvidence(w1.server.evidence, node, id) by {
      assert w1.server.evidence[|w.server.evidence|] == Evidence(n, node, issue, t);
    }
    BlockHasNoBang(t, n);
    EvidenceBlockRoundTrip(t, id);
    assert Text(env, w1, path) == t + EvidenceBlock(id);
  }
}
